=== FILE: README.md ===
# DNS buffer decoder and report, modelled in Dafny

`decode-dns-buffer.py` takes one DNS message in wire format (section 4.1 of
RFC 1035) and prints it as a boxed text report. This project models that
program. The model has two parts:

- The decoder turns the buffer into a header, a question section and three
  resource-record sections (answer, authority, additional).
- The renderer turns the decoded message into the report text.

The model follows the program as written, quirks included:

- A record whose type is not A (1), NS (2) or SOA (6) consumes only its ten
  fixed bytes. Its `rdlength` is never used, so the next record is read from
  inside the skipped payload.
- The header's flag line shows the opcode in its `RCODE=` slot. The response
  code never appears in the report.
- A question whose class is not IN (1) cannot be rendered, and neither can
  a question of any type other than A, NS or SOA. A record of type A, NS or
  SOA whose class is not IN cannot be rendered either. The program leaves a
  local variable unassigned and fails when it uses it. The model returns
  `UnsetClass` or `UnsetType` and produces no report. A record of any other
  type renders as `*Not implemented*`, whatever its class.
- A fixed-width read past the end of the buffer (`struct.error`) is
  `Truncated`.
- A compression pointer is followed with no check at all. The program stops
  only when Python's recursion limit is reached. The model makes this bound
  explicit as `fuel`: at most `RecursionLimit` (1000) nested pointers, then
  `PointerDepth`.
- A name may mix labels and a final pointer. The labels read before the
  pointer come first, followed by the labels at the pointer's target.

Modules, in dependency order:

- `Wire` (wire.dfy): bytes, errors, `Result`, and big-endian 16- and 32-bit reads.
- `Text` (text.dfy): decimal rendering, `join` and `split`.
- `Header` (header.dfy): the 12-byte header and its flag word.
- `Names` (names.dfy): `decode_labels`.
- `Records` (records.dfy): `decode_question`'s loop body and `decode_rr`.
- `Sections` (sections.dfy): the section loops.
- `Message` (message.dfy): `decode_dns_message`.
- `Render` (render.dfy): `str_question`, `str_rr` and the header lines.
- `Layout` (layout.dfy): the box.
- `Report` (report.dfy): `print_dns_message` without the final `print`.
- `Samples` (samples.dfy): a query for example.com and its answer, 192.0.2.1, decoded and rendered.

Every decoder is a pure function from the buffer and an offset to a value
and the next offset. Each has a partner:

- Header fields and the flag word: an encoder, proved to round-trip both ways.
- Questions: an encoder and a round trip.
- Names: the uncompressed encoding, and an encoding that ends in a pointer.
- Record payloads and whole records: an encoder for each part (the fixed fields, each payload variant, the whole record), with a round trip for each.
- Sections and the message: a description of the items lying back to back (`Chain`, `MessageAt`), also with if-and-only-if lemmas.
- The renderer: the split of each line back into its fields.
- The layout: the chunk concatenation that gives back the wrapped line.

## Model

| member | source | states |
|---|---|---|
| Wire.U16RoundTrip | decode-dns-buffer.py:13-14 | two bytes written by "!H" read back as the value, at any offset of any buffer |
| Wire.U32RoundTrip | decode-dns-buffer.py:71-74 | four bytes written by "!I" read back as the value |
| Header.UnpackFlags | decode-dns-buffer.py:16-23 | every field extracted from the flag word fits its bit width: qr, aa, tc, rd, ra below 2, z below 8, opcode and rcode below 16 |
| Header.PackUnpack | decode-dns-buffer.py:16-23 | repacking the extracted fields as qr<<15, opcode<<11, aa<<10, tc<<9, rd<<8, ra<<7, z<<4, rcode reproduces the flag word exactly |
| Header.UnpackPack | decode-dns-buffer.py:16-23 | extracting the fields of a packed word gives back every field |
| Header.DecodeHeader | decode-dns-buffer.py:12-43 | succeeds exactly when the buffer holds 12 bytes, and fails with Truncated otherwise; the offset is then 12, every field fits its width, and re-encoding the header gives back the buffer's first 12 bytes |
| Header.EncodeDecoded | decode-dns-buffer.py:12-43 | the header read from any 12 bytes re-serializes to those bytes |
| Header.DecodeEncoded | decode-dns-buffer.py:12-43 | a serialized header decodes to itself with offset 12, whatever bytes follow it |
| Names.PointerTarget | decode-dns-buffer.py:52-57 | a pointer's target is below 0x4000, its top two bits dropped |
| Names.DecodeName | decode-dns-buffer.py:45-68 | on success the returned offset lies past the start and within the buffer; starting at or past the end fails with Truncated; the only failures are Truncated and PointerDepth. The five lemmas below say where each failure comes from |
| Names.ReadName | decode-dns-buffer.py:45-68 | the same guarantees, starting at or past the end included, with the fuel set to the recursion limit |
| Names.TruncatedName | decode-dns-buffer.py:49-68 | a buffer that ends anywhere inside an uncompressed name, at a length byte, inside a label or before the closing zero, fails with Truncated |
| Names.TruncatedCompressedName | decode-dns-buffer.py:49-68 | a buffer that ends anywhere inside a name written as labels and a pointer fails with Truncated, including a pointer whose second byte is missing |
| Names.PointerTargetFails | decode-dns-buffer.py:51-58 | a pointer whose target name fails fails with the target's error |
| Names.CompressedTargetFails | decode-dns-buffer.py:48-60 | labels followed by a pointer whose target fails give the target's error, however many labels came first |
| Names.PointerDepthAtZero | decode-dns-buffer.py:48-58 | a pointer reached with no fuel left fails with PointerDepth, however many labels came first |
| Names.DecodePlainName | decode-dns-buffer.py:48-68 | a name written without pointers decodes to its labels in buffer order, and the offset advances by one plus the length of each label, plus one for the terminator |
| Names.DecodePointer | decode-dns-buffer.py:51-60 | a pointer yields the labels decoded at its target, with one pointer of fuel less, and the offset just past the pointer's two bytes |
| Names.DecodeLabel | decode-dns-buffer.py:62-68 | a label read at the offset comes before the labels that follow it, and the end is theirs |
| Names.DecodeCompressedName | decode-dns-buffer.py:48-60 | labels followed by a pointer decode to those labels followed by the target's labels; the offset ends two bytes past the pointer's position, whatever the target's length |
| Names.FuelMonotone | decode-dns-buffer.py:58-60 | a decode that succeeds with some fuel gives the same result with any larger fuel, so the bound only cuts off pointer chains that are too deep |
| Names.SelfPointerFails | decode-dns-buffer.py:58-60 | a pointer to its own position fails with PointerDepth for every bound, as the unguarded recursion does |
| Records.DottedQuadInverse | decode-dns-buffer.py:84-87 | the address text, four decimal numbers joined by dots, parses back to the four address bytes, so different addresses give different texts |
| Records.DecodeQuestion | decode-dns-buffer.py:111-121 | a failing name fails the question with the same error; missing type and class bytes give Truncated; otherwise the question has the decoded name, its type and class are the two big-endian words after the name, and the offset moves 4 bytes past the name |
| Records.DecodeRData | decode-dns-buffer.py:83-105 | the payload is an address, a name server or an SOA exactly when the type is 1, 2 or 6. An A payload is its four bytes in dotted decimal and ends 4 bytes on, or Truncated. An NS payload is the name read there, or that name's error. An SOA payload fails with the first name's error, then the second's, then Truncated if 20 bytes do not follow; otherwise it holds the two names read one after the other and the five big-endian counters after them. Any other type consumes nothing. The only failures are Truncated and PointerDepth |
| Records.DecodeRR | decode-dns-buffer.py:70-105 | a failing owner name fails the record with its error; missing fixed bytes give Truncated; a failing payload fails the record with its error. A decoded record has the owner name, then type, class, ttl and rdlength read big-endian from the next ten bytes, then the payload decoded for that type, and ends where the payload ends. Its payload is left undecoded exactly when its type is not 1, 2 or 6 |
| Records.FixedParts | decode-dns-buffer.py:71-75 | the ten bytes written by "!2HIH" read back as the record's type, class, ttl and rdlength |
| Records.DecodeEncodedSoa | decode-dns-buffer.py:90-103 | an SOA payload written as two uncompressed names and then "!5I" decodes to itself and ends after its last counter |
| Records.DecodeEncodedRData | decode-dns-buffer.py:83-105 | every well-formed payload, written for its type, decodes to itself and ends where its bytes end; a payload of any other type is empty |
| Records.DecodeEncodedRR | decode-dns-buffer.py:70-105 | a record written as uncompressed owner name, "!2HIH" and payload decodes to itself and ends where its bytes end. A record of another type ends right after its fixed part, whatever bytes follow |
| Records.UndecodedEndsAfterFixedPart | decode-dns-buffer.py:70-105 | a record of another type ends right after its ten fixed bytes, whatever its rdlength says |
| Records.DecodeEncodedQuestion | decode-dns-buffer.py:111-121 | a question written without compression decodes to itself, and the offset moves past it |
| Sections.Repeat | decode-dns-buffer.py:107-134 | a section that decodes holds exactly as many items as its count, and a count of 0 reads nothing. |
| Sections.RepeatChainIff | decode-dns-buffer.py:107-134 | a section decodes to some items and an end exactly when those items lie back to back in the buffer, each starting where the previous one ended |
| Sections.RepeatFailureIff | decode-dns-buffer.py:107-134 | a section fails with an error exactly when some item fails with it after the items before it were read; the first failure aborts the section |
| Sections.RepeatSplit | decode-dns-buffer.py:127-134 | reading m + n items is reading m items, then n more from where they ended |
| Sections.RepeatErrors | decode-dns-buffer.py:127-134 | a section fails only with errors its item decoder can fail with |
| Message.DecodeMessage | decode-dns-buffer.py:136-151 | a buffer shorter than the header fails with Truncated; a decoded message carries the header as decoded and exactly qdcount, ancount, nscount and arcount items in its sections |
| Message.DecodeMessageIff | decode-dns-buffer.py:136-151 | the decoder returns a message exactly when its header is at the start, its questions start at 12, and each later section starts where the one before it ended, with the header's counts |
| Message.DecodeMessageErrors | decode-dns-buffer.py:136-151 | decoding fails only with Truncated or PointerDepth |
| Text.ParseDecOfDec | decode-dns-buffer.py:171-193 | the decimal text of a number reads back as the number |
| Text.SplitJoin | decode-dns-buffer.py:164 | fields that hold no separator come back unchanged when they are joined at it and split again. |
| Render.LabelText | decode-dns-buffer.py:164 | a label's text has one character per byte, with that byte's code |
| Render.TypeName | decode-dns-buffer.py:157-162 | a question type has a mnemonic exactly when it is 1, 2 or 6; any other type is UnsetType |
| Render.StrQuestion | decode-dns-buffer.py:153-164 | a question renders exactly when its class is IN and its type is A, NS or SOA; another class gives UnsetClass whatever the type; class IN with another type gives UnsetType |
| Render.QuestionFields | decode-dns-buffer.py:164 | a rendered question whose name holds no space splits into the name with a final dot, "IN" and the type mnemonic |
| Render.StrRR | decode-dns-buffer.py:166-195 | a record with an undecoded payload, that is of another type, renders as `*Not implemented*` whatever its class; a record of a known type with a class other than IN gives UnsetClass; rendering succeeds exactly in the remaining cases |
| Render.RecordLineFields | decode-dns-buffer.py:170-193 | a rendered record whose names hold no space splits back into owner with a final dot, ttl, IN, type, then the payload's fields: the address; the name server; or the two names and the five counters |
| Render.NotImplementedIff | decode-dns-buffer.py:194-195 | a rendered record line is `*Not implemented*` exactly when the record's payload was left undecoded, which `Records.DecodeRR` ties to a type other than A, NS or SOA |
| Render.HeaderLinesIff | decode-dns-buffer.py:202-208 | two headers give the same header lines exactly when they agree once each one's response code is replaced by its opcode |
| Layout.WidthIsCappedMax | decode-dns-buffer.py:226-232 | the column width is at most 76; every line's length capped at 76 is at most the width; a non-zero width is reached by some line |
| Layout.ColumnWidth | decode-dns-buffer.py:226-232 | the nested scan over every line of every group computes the column width |
| Layout.Border | decode-dns-buffer.py:236 | a border row is the width plus 4 long: `+`, dashes, `+` |
| Layout.Row | decode-dns-buffer.py:238-242 | a row is the width plus 4 long, starts and ends with its edge character (`\|` for a line that fits, `/` for a chunk of a wrapped line), and holds a space, the text, then spaces up to the closing edge |
| Layout.Chunks | decode-dns-buffer.py:241-242 | a wrapped line is cut into its length divided by the width, plus one, chunks, none longer than the width |
| Layout.ChunksSpellLine | decode-dns-buffer.py:241-242 | the chunks of a wrapped line, concatenated in order, are the line |
| Layout.ChunksFull | decode-dns-buffer.py:241-242 | every chunk before the last is exactly the width long |
| Layout.LastChunkEmpty | decode-dns-buffer.py:241-242 | when the width divides the line's length, the last chunk is empty, so the wrapped line ends with a blank row |
| Layout.LineRows | decode-dns-buffer.py:237-242 | every row is the width plus 4 long. A line that fits gives one `\|` row holding the line. A longer line gives its length divided by the width, plus one, `/` rows, row k holding chunk k, so by `Layout.ChunksSpellLine` the rows spell the line in order |
| Layout.Rows | decode-dns-buffer.py:234-243 | every row of the box is the width plus 4 long, and there are at least as many rows as groups plus one |
| Layout.RowsSplit | decode-dns-buffer.py:234-243 | cut at its `+` rows, the box is an empty run, then the line rows of each group in order, then an empty run, so a border opens every group and one closes the box |
| Layout.GroupsRowsAt | decode-dns-buffer.py:237-242 | run i of the groups' line rows is what the lines of group i give, in order |
| Layout.RowsFramed | decode-dns-buffer.py:234-243 | every row starts and ends with the same marker, one of `+`, `\|` or `/` |
| Layout.WidthFits | decode-dns-buffer.py:231-241 | the computed width never leaves a longer line to be cut at width zero |
| Report.RenderAll | decode-dns-buffer.py:211-224 | rendering a section succeeds exactly when every item renders, line for line in order; otherwise it fails with the error of the first item that does not render |
| Report.Groups | decode-dns-buffer.py:201-224 | the report has five groups, the header lines first. The groups for the question, answer, authority and additional sections start with the titles "Question", "Answer", "Authority" and "Additional", each followed by a line of dashes of the title's length. Then comes the rendered line of each item, in order |
| Report.PrintDnsMessage | decode-dns-buffer.py:197-198 | a buffer that does not decode gives no report, only the decoder's error |
| Report.GroupsOkIff | decode-dns-buffer.py:201-224 | the lines of a message render exactly when every question has class IN and a known type, and every record of a known type has class IN |
| Report.PrintOkIff | decode-dns-buffer.py:197-243 | a report is produced exactly when the buffer decodes and its message renders |
| Report.ReportWidth | decode-dns-buffer.py:222-232 | the box is at least 10 wide, the length of the title "Additional", and at most 76 |
| Samples.QueryNameDecodes | decode-dns-buffer.py:48-68 | the labels "example" and "com" written at offset 12 decode to those labels, with the offset 13 bytes further on |
| Samples.QueryDecodes | decode-dns-buffer.py:136-151 | the sample query decodes to its header and one question for example.com, type A, class IN |
| Samples.QueryQuestionLine | decode-dns-buffer.py:153-164 | that question renders as "example.com. IN A" |
| Samples.AnswerOwnerDecodes | decode-dns-buffer.py:51-60 | a pointer to offset 12 in the sample response decodes to example.com, and the offset moves exactly two bytes |
| Samples.ResponseDecodes | decode-dns-buffer.py:136-151 | the sample response decodes to its header, the question and one A record for example.com with ttl 3600 and address 192.0.2.1 |
| Samples.AnswerLine | decode-dns-buffer.py:170-175 | that record renders as "example.com. 3600 IN A 192.0.2.1" |

## Left out

- The command-line handling, base64 decoding of the argument, the final `print` and the commented-out file reading (decode-dns-buffer.py:8-10, 245-252) are input and output. The model starts from the decoded buffer and ends with the report text. `print` adds one newline after it.
- measurements/parse.py and measurements/server.rb are not part of this model. They fetch results over HTTP, call third-party parsers and a DNS server library, read the clock and plot. None of this is self-contained logic.
- Names.DecodeName: the recursion limit is approximated. Python counts every frame on the stack, including the callers of `decode_labels`. The model allows exactly `RecursionLimit` nested pointers. Only how deep a pointer chain may go before `PointerDepth` differs.
- Pointers are not required to point backwards, and pointer loops are not rejected, because the program does neither. A loop ends in `PointerDepth`, just as the program's ends in Python 2's `RuntimeError: maximum recursion depth exceeded`. The semantic rules of RFC 1035 (labels of at most 63 bytes, backward pointers) are not enforced, because the program does not enforce them.
- The rdlength field is read but not used to skip the payload, as in the program. A record of an unknown type with a non-empty payload leaves the next read inside that payload.
- The encoders write names without compression, so the round trips do not cover records and questions whose names use pointers. Compressed names have their own lemmas in `Names`.
- Labels are rendered one byte per character, as Python 2's `'.'.join` over byte strings does. Character encodings are out of scope.
- Integers print in plain decimal, which is what `%i` and `%s` produce for the non-negative values that occur.
- A Python exception is modelled as an error result. No partial output is produced, because the program prints only once the whole report is built.

=== FILE: header.dfy ===
/** The fixed 12-byte message header (section 4.1.1 of RFC 1035): six
    big-endian 16-bit words, the second of which packs eight flag fields. */
module Header {
  import opened Wire

  const HeaderSize: nat := 12

  /** The fields packed into the second header word, most significant first:
      qr(1) opcode(4) aa(1) tc(1) rd(1) ra(1) z(3) rcode(4). */
  datatype Flags = Flags(qr: nat, opcode: nat, aa: nat, tc: nat, rd: nat, ra: nat, z: nat, rcode: nat)
  {
    /** Every field fits its bit width. */
    predicate Valid() {
      qr < 2 && opcode < 16 && aa < 2 && tc < 2 && rd < 2 && ra < 2 && z < 8 && rcode < 16
    }
  }

  datatype Header = Header(id: nat, flags: Flags, qdcount: nat, ancount: nat, nscount: nat, arcount: nat)
  {
    predicate Valid() {
      id < Two16 && flags.Valid()
      && qdcount < Two16 && ancount < Two16 && nscount < Two16 && arcount < Two16
    }
  }

  /** Extracts the flag fields by shifting and masking; `(w >> k) & m` is
      written `(w / 2^k) % (m + 1)`, which agrees on non-negative words. */
  function UnpackFlags(w: nat): (f: Flags)
    requires w < Two16
    ensures f.Valid()
  {
    Flags(
      qr := (w / 0x8000) % 2,
      opcode := (w / 0x800) % 16,
      aa := (w / 0x400) % 2,
      tc := (w / 0x200) % 2,
      rd := (w / 0x100) % 2,
      ra := (w / 0x80) % 2,
      z := (w / 0x10) % 8,
      rcode := w % 16)
  }

  /** `qr<<15 | opcode<<11 | aa<<10 | tc<<9 | rd<<8 | ra<<7 | z<<4 | rcode`;
      the fields occupy disjoint bits, so `|` is `+`. */
  function PackFlags(f: Flags): (w: nat)
    requires f.Valid()
    ensures w < Two16
  {
    f.qr * 0x8000 + f.opcode * 0x800 + f.aa * 0x400 + f.tc * 0x200
    + f.rd * 0x100 + f.ra * 0x80 + f.z * 0x10 + f.rcode
  }

  /** The bits of `w` above position `k * m`, reached in two shifts. */
  lemma NextField(w: nat, k: nat, m: nat)
    requires || (k == 0x10 && m == 8) || (k == 0x80 && m == 2) || (k == 0x100 && m == 2)
             || (k == 0x200 && m == 2) || (k == 0x400 && m == 2) || (k == 0x800 && m == 16)
    ensures w / (k * m) == (w / k) / m
    ensures w / k == (w / (k * m)) * m + (w / k) % m
  {
  }

  /** `x` cut at a field boundary `k` into the part above and below it. */
  lemma ShiftSplit(x: nat, k: nat, q: nat, r: nat)
    requires k == 0x10 || k == 0x80 || k == 0x100 || k == 0x200 || k == 0x400 || k == 0x800 || k == 0x8000
    requires r < k && x == q * k + r
    ensures x / k == q
  {
  }

  /** The lowest field of width `m` of `q`. */
  lemma LowField(q: nat, m: nat, hi: nat, b: nat)
    requires m == 2 || m == 8 || m == 16
    requires b < m && q == hi * m + b
    ensures q % m == b
  {
  }

  /** Repacking the unpacked fields reproduces the flag word exactly. */
  lemma PackUnpack(w: nat)
    requires w < Two16
    ensures PackFlags(UnpackFlags(w)) == w
  {
    NextField(w, 0x10, 8);
    NextField(w, 0x80, 2);
    NextField(w, 0x100, 2);
    NextField(w, 0x200, 2);
    NextField(w, 0x400, 2);
    NextField(w, 0x800, 16);
    var f := UnpackFlags(w);
    // `low` holds the fields below the current boundary.
    var low := f.z * 0x10 + f.rcode;
    assert w == (w / 0x80) * 0x80 + low;
    low := low + f.ra * 0x80;
    assert w == (w / 0x100) * 0x100 + low;
    low := low + f.rd * 0x100;
    assert w == (w / 0x200) * 0x200 + low;
    low := low + f.tc * 0x200;
    assert w == (w / 0x400) * 0x400 + low;
    low := low + f.aa * 0x400;
    assert w == (w / 0x800) * 0x800 + low;
    low := low + f.opcode * 0x800;
    assert w == (w / 0x8000) * 0x8000 + low;
    assert w / 0x8000 == f.qr;
  }

  // Where each field of a packed word is found: the bits above it and the
  // bits below it, cut at the field's position.

  lemma PackedLowFields(f: Flags)
    requires f.Valid()
    ensures PackFlags(f) % 16 == f.rcode && (PackFlags(f) / 0x10) % 8 == f.z
  {
    var above := f.qr * 0x800 + f.opcode * 0x80 + f.aa * 0x40 + f.tc * 0x20 + f.rd * 0x10 + f.ra * 8 + f.z;
    ShiftSplit(PackFlags(f), 0x10, above, f.rcode);
    LowField(PackFlags(f), 16, above, f.rcode);
    LowField(above, 8, above / 8, f.z);
  }

  lemma PackedRa(f: Flags)
    requires f.Valid()
    ensures (PackFlags(f) / 0x80) % 2 == f.ra
  {
    var above := f.qr * 0x100 + f.opcode * 0x10 + f.aa * 8 + f.tc * 4 + f.rd * 2 + f.ra;
    ShiftSplit(PackFlags(f), 0x80, above, f.z * 0x10 + f.rcode);
    LowField(above, 2, above / 2, f.ra);
  }

  lemma PackedRd(f: Flags)
    requires f.Valid()
    ensures (PackFlags(f) / 0x100) % 2 == f.rd
  {
    var above := f.qr * 0x80 + f.opcode * 8 + f.aa * 4 + f.tc * 2 + f.rd;
    ShiftSplit(PackFlags(f), 0x100, above, f.ra * 0x80 + f.z * 0x10 + f.rcode);
    LowField(above, 2, above / 2, f.rd);
  }

  lemma PackedTc(f: Flags)
    requires f.Valid()
    ensures (PackFlags(f) / 0x200) % 2 == f.tc
  {
    var above := f.qr * 0x40 + f.opcode * 4 + f.aa * 2 + f.tc;
    ShiftSplit(PackFlags(f), 0x200, above, f.rd * 0x100 + f.ra * 0x80 + f.z * 0x10 + f.rcode);
    LowField(above, 2, above / 2, f.tc);
  }

  lemma PackedAa(f: Flags)
    requires f.Valid()
    ensures (PackFlags(f) / 0x400) % 2 == f.aa
  {
    var above := f.qr * 0x20 + f.opcode * 2 + f.aa;
    ShiftSplit(PackFlags(f), 0x400, above, f.tc * 0x200 + f.rd * 0x100 + f.ra * 0x80 + f.z * 0x10 + f.rcode);
    LowField(above, 2, above / 2, f.aa);
  }

  lemma PackedHighFields(f: Flags)
    requires f.Valid()
    ensures (PackFlags(f) / 0x800) % 16 == f.opcode && (PackFlags(f) / 0x8000) % 2 == f.qr
  {
    var below := f.aa * 0x400 + f.tc * 0x200 + f.rd * 0x100 + f.ra * 0x80 + f.z * 0x10 + f.rcode;
    ShiftSplit(PackFlags(f), 0x800, f.qr * 0x10 + f.opcode, below);
    LowField(f.qr * 0x10 + f.opcode, 16, f.qr, f.opcode);
    ShiftSplit(PackFlags(f), 0x8000, f.qr, f.opcode * 0x800 + below);
    LowField(f.qr, 2, 0, f.qr);
  }

  /** Unpacking a packed word gives back every field. */
  lemma UnpackPack(f: Flags)
    requires f.Valid()
    ensures UnpackFlags(PackFlags(f)) == f
  {
    PackedLowFields(f);
    PackedRa(f);
    PackedRd(f);
    PackedTc(f);
    PackedAa(f);
    PackedHighFields(f);
  }

  /** `decode_header`: unpacks "!6H" at the start of the buffer and returns
      the header with offset 12, the size of the header format. */
  function DecodeHeader(buf: Buffer): (r: Result<(Header, nat)>)
    ensures r.Ok? <==> HeaderSize <= |buf|
    ensures r.Err? ==> r.error == Truncated
    ensures r.Ok? ==> r.value.1 == HeaderSize && r.value.0.Valid()
    ensures r.Ok? ==> EncodeHeader(r.value.0) == buf[..HeaderSize]
  {
    if |buf| < HeaderSize then Err(Truncated)
    else
      var h := Header(U16At(buf, 0), UnpackFlags(U16At(buf, 2)),
                      U16At(buf, 4), U16At(buf, 6), U16At(buf, 8), U16At(buf, 10));
      EncodeDecoded(buf, h);
      Ok((h, HeaderSize))
  }

  /** The 12 bytes a header occupies on the wire: the partner of
      `DecodeHeader`. */
  function EncodeHeader(h: Header): (b: Buffer)
    requires h.Valid()
    ensures |b| == HeaderSize
  {
    U16Bytes(h.id) + U16Bytes(PackFlags(h.flags)) + U16Bytes(h.qdcount)
    + U16Bytes(h.ancount) + U16Bytes(h.nscount) + U16Bytes(h.arcount)
  }

  /** The header read from the first 12 bytes re-serializes to those bytes. */
  lemma EncodeDecoded(buf: Buffer, h: Header)
    requires HeaderSize <= |buf|
    requires h == Header(U16At(buf, 0), UnpackFlags(U16At(buf, 2)),
                         U16At(buf, 4), U16At(buf, 6), U16At(buf, 8), U16At(buf, 10))
    ensures h.Valid() && EncodeHeader(h) == buf[..HeaderSize]
  {
    PackUnpack(U16At(buf, 2));
    U16Repack(buf, 0);
    U16Repack(buf, 2);
    U16Repack(buf, 4);
    U16Repack(buf, 6);
    U16Repack(buf, 8);
    U16Repack(buf, 10);
    assert buf[..HeaderSize] == buf[0..2] + buf[2..4] + buf[4..6] + buf[6..8] + buf[8..10] + buf[10..12];
  }

  /** Decoding a serialized header, whatever follows it, gives the header
      back with offset 12. */
  lemma DecodeEncoded(h: Header, rest: Buffer)
    requires h.Valid()
    ensures DecodeHeader(EncodeHeader(h) + rest) == Ok((h, HeaderSize))
  {
    var buf := EncodeHeader(h) + rest;
    var flags := PackFlags(h.flags);
    assert buf[0..2] == U16Bytes(h.id);
    assert buf[2..4] == U16Bytes(flags);
    assert buf[4..6] == U16Bytes(h.qdcount);
    assert buf[6..8] == U16Bytes(h.ancount);
    assert buf[8..10] == U16Bytes(h.nscount);
    assert buf[10..12] == U16Bytes(h.arcount);
    U16RoundTrip(buf, 0, h.id);
    U16RoundTrip(buf, 2, flags);
    U16RoundTrip(buf, 4, h.qdcount);
    U16RoundTrip(buf, 6, h.ancount);
    U16RoundTrip(buf, 8, h.nscount);
    U16RoundTrip(buf, 10, h.arcount);
    UnpackPack(h.flags);
  }
}

=== FILE: layout.dfy ===
/** The box `print_dns_message` draws around the report: one group of lines
    per part of the message, a column width that is the longest line capped
    at 76 characters, a `+---+` border above every group and below the last,
    `| line |` rows padded to the width, and lines longer than the width cut
    into `/ chunk /` rows.  Rows are given without their newline; `Text`
    adds one after each. */
module Layout {

  const MaxWidth: nat := 76

  function Max(a: nat, b: nat): nat {
    if a < b then b else a
  }

  function Min(a: nat, b: nat): nat {
    if a < b then a else b
  }

  /** The length of the longest of `lines`, 0 if there are none. */
  function Longest(lines: seq<string>): nat {
    if |lines| == 0 then 0 else Max(Longest(lines[..|lines| - 1]), |lines[|lines| - 1]|)
  }

  /** The length of the longest line of any group. */
  function MaxLen(groups: seq<seq<string>>): nat {
    if |groups| == 0 then 0 else Max(MaxLen(groups[..|groups| - 1]), Longest(groups[|groups| - 1]))
  }

  /** The column width: the longest line, capped at `MaxWidth`. */
  function Width(groups: seq<seq<string>>): nat {
    Min(MaxLen(groups), MaxWidth)
  }

  lemma {:induction false} LongestIsMax(lines: seq<string>)
    ensures forall j :: 0 <= j < |lines| ==> |lines[j]| <= Longest(lines)
    ensures Longest(lines) == 0 || exists j :: 0 <= j < |lines| && |lines[j]| == Longest(lines)
  {
    if |lines| > 0 {
      var init := lines[..|lines| - 1];
      LongestIsMax(init);
      assert forall j :: 0 <= j < |init| ==> init[j] == lines[j];
    }
  }

  lemma {:induction false} MaxLenIsMax(groups: seq<seq<string>>)
    ensures forall i, j :: 0 <= i < |groups| && 0 <= j < |groups[i]| ==> |groups[i][j]| <= MaxLen(groups)
    ensures MaxLen(groups) == 0 || exists i, j :: 0 <= i < |groups| && 0 <= j < |groups[i]| && |groups[i][j]| == MaxLen(groups)
  {
    if |groups| > 0 {
      var init, last := groups[..|groups| - 1], groups[|groups| - 1];
      MaxLenIsMax(init);
      LongestIsMax(last);
      assert forall i :: 0 <= i < |init| ==> init[i] == groups[i];
    }
  }

  /** The width is the longest line when that fits in 76 characters and 76
      otherwise: no line is shorter than its length capped at the width,
      and a non-zero width is reached by some line. */
  lemma WidthIsCappedMax(groups: seq<seq<string>>)
    ensures Width(groups) <= MaxWidth
    ensures forall i, j :: 0 <= i < |groups| && 0 <= j < |groups[i]| ==> Min(|groups[i][j]|, MaxWidth) <= Width(groups)
    ensures Width(groups) == 0 || exists i, j :: 0 <= i < |groups| && 0 <= j < |groups[i]| && Min(|groups[i][j]|, MaxWidth) == Width(groups)
  {
    MaxLenIsMax(groups);
  }

  /** The width scan in `print_dns_message` (decode-dns-buffer.py): the
      running maximum over every line of every group, then the cap. */
  method ColumnWidth(groups: seq<seq<string>>) returns (w: nat)
    ensures w == Width(groups)
  {
    var maxLen := 0;
    var i := 0;
    while i < |groups|
      invariant 0 <= i <= |groups|
      invariant maxLen == MaxLen(groups[..i])
    {
      var row := groups[i];
      var j := 0;
      while j < |row|
        invariant 0 <= j <= |row|
        invariant maxLen == Max(MaxLen(groups[..i]), Longest(row[..j]))
      {
        if maxLen < |row[j]| {
          maxLen := |row[j]|;
        }
        assert row[..j + 1][..j] == row[..j];
        j := j + 1;
      }
      assert row[..j] == row;
      assert groups[..i + 1][..i] == groups[..i];
      i := i + 1;
    }
    assert groups[..i] == groups;
    if maxLen > MaxWidth {
      maxLen := MaxWidth;
    }
    w := maxLen;
  }

  function Fill(c: char, n: nat): (s: string)
    ensures |s| == n && forall k :: 0 <= k < n ==> s[k] == c
  {
    seq(n, _ => c)
  }

  /** `'+' + '-' * (width + 2) + '+'`. */
  function Border(w: nat): (row: string)
    ensures |row| == w + 4
    ensures row[0] == '+' && row[w + 3] == '+'
    ensures forall k :: 1 <= k < w + 3 ==> row[k] == '-'
  {
    "+" + Fill('-', w + 2) + "+"
  }

  /** A row between two `edge` characters: `| ` and the line for a line
      that fits, `/ ` and a chunk for a piece of a wrapped line, then
      spaces up to the width plus one, then the edge again. */
  function Row(edge: char, text: string, w: nat): (row: string)
    requires |text| <= w
    ensures |row| == w + 4
    ensures row[0] == edge && row[w + 3] == edge
    ensures row[1] == ' ' && row[2..2 + |text|] == text
    ensures forall k :: 2 + |text| <= k < w + 3 ==> row[k] == ' '
  {
    [edge, ' '] + text + Fill(' ', w - |text| + 1) + [edge]
  }

  /** Python's `line[lo:hi]` for `0 <= lo`: both ends clamp to the length. */
  function Slice(line: string, lo: nat, hi: nat): (s: string)
    ensures |s| <= hi - lo || hi < lo
  {
    var a := Min(lo, |line|);
    var b := Min(hi, |line|);
    if a <= b then line[a..b] else ""
  }

  /** `line[i*w:(i+1)*w]` for `i` in `range(len(line) // w + 1)`. */
  function Chunks(line: string, w: nat): (cs: seq<string>)
    requires 0 < w
    ensures |cs| == |line| / w + 1
    ensures forall i :: 0 <= i < |cs| ==> |cs[i]| <= w
  {
    seq(|line| / w + 1, i requires 0 <= i => Slice(line, i * w, (i + 1) * w))
  }

  function Concat(ss: seq<string>): string {
    if |ss| == 0 then "" else ss[0] + Concat(ss[1..])
  }

  /** `line[k * w:]` with the clamp. */
  function Rest(line: string, k: nat): string {
    if k <= |line| then line[k..] else ""
  }

  /** `n // w` whole widths fit in `n`, one more does not. */
  lemma DivBounds(n: nat, w: nat)
    requires 0 < w
    ensures (n / w) * w <= n < (n / w) * w + w
  {
  }

  lemma MulMonotone(a: nat, b: nat, w: nat)
    requires a <= b
    ensures a * w <= b * w
  {
  }

  lemma MulSucc(i: nat, w: nat)
    ensures (i + 1) * w == i * w + w
  {
  }

  /** Chunk `i` starts `i * w` characters in and runs for `w` characters
      or to the end of the line, whichever comes first. */
  lemma ChunkAt(line: string, w: nat, i: nat)
    requires 0 < w && i < |line| / w + 1
    ensures i * w <= |line|
    ensures Chunks(line, w)[i] == line[i * w..Min(i * w + w, |line|)]
  {
    DivBounds(|line|, w);
    MulMonotone(i, |line| / w, w);
    MulSucc(i, w);
  }

  /** Chunk `i` followed by the line after it is the line from chunk `i`
      on. */
  lemma ChunkStep(line: string, w: nat, i: nat)
    requires 0 < w && i < |line| / w + 1
    ensures Rest(line, i * w) == Chunks(line, w)[i] + Rest(line, (i + 1) * w)
  {
    MulSucc(i, w);
    ChunkAt(line, w, i);
    var lo, hi := i * w, i * w + w;
    if hi <= |line| {
      assert line[lo..] == line[lo..hi] + line[hi..];
    }
  }

  /** Past the last chunk nothing of the line is left. */
  lemma PastLastChunk(line: string, w: nat)
    requires 0 < w
    ensures Rest(line, (|line| / w + 1) * w) == ""
  {
    var q := |line| / w;
    DivBounds(|line|, w);
    MulSucc(q, w);
    assert (q + 1) * w > |line|;
  }

  /** The chunks from index `i` on spell the line from `i * w` on. */
  lemma {:induction false} ChunksFrom(line: string, w: nat, i: nat)
    requires 0 < w && i <= |line| / w + 1
    ensures Concat(Chunks(line, w)[i..]) == Rest(line, i * w)
    decreases |line| / w + 1 - i
  {
    var cs := Chunks(line, w);
    if i == |cs| {
      PastLastChunk(line, w);
    } else {
      ChunksFrom(line, w, i + 1);
      ChunkStep(line, w, i);
      assert cs[i..][1..] == cs[i + 1..];
    }
  }

  /** The chunks of a wrapped line, read in order, are the line. */
  lemma ChunksSpellLine(line: string, w: nat)
    requires 0 < w
    ensures Concat(Chunks(line, w)) == line
  {
    ChunksFrom(line, w, 0);
    assert Chunks(line, w)[0..] == Chunks(line, w);
  }

  /** Every chunk but the last is a full `w` characters. */
  lemma ChunksFull(line: string, w: nat, i: nat)
    requires 0 < w && i < |line| / w
    ensures |Chunks(line, w)[i]| == w
  {
    ChunkAt(line, w, i);
    MulMonotone(i + 1, |line| / w, w);
    MulSucc(i, w);
    DivBounds(|line|, w);
  }

  /** When the width divides the line's length the last chunk is empty,
      so a wrapped line ends with a blank `/` row. */
  lemma LastChunkEmpty(line: string, w: nat)
    requires 0 < w && |line| % w == 0
    ensures Chunks(line, w)[|line| / w] == ""
  {
    var q := |line| / w;
    assert q * w == |line|;
    ChunkAt(line, w, q);
  }

  /** The width suffices for `line`: it fits, or it can be cut into
      chunks of a positive width. */
  predicate Fits(line: string, w: nat) {
    |line| <= w || 0 < w
  }

  /** In `print_dns_message` (decode-dns-buffer.py), a line that fits
      becomes one `|` row, a longer one becomes one `/` row per chunk. */
  function LineRows(line: string, w: nat): (rows: seq<string>)
    requires Fits(line, w)
    ensures 1 <= |rows|
    ensures forall k :: 0 <= k < |rows| ==> |rows[k]| == w + 4
    ensures |line| <= w ==> |rows| == 1 && rows[0][0] == '|' && rows[0][2..2 + |line|] == line
    ensures |line| > w ==>
      && |rows| == |line| / w + 1
      && forall k :: 0 <= k < |rows| ==> rows[k][0] == '/' && rows[k][2..2 + |Chunks(line, w)[k]|] == Chunks(line, w)[k]
  {
    if |line| <= w then [Row('|', line, w)]
    else
      var cs := Chunks(line, w);
      seq(|cs|, k requires 0 <= k < |cs| => Row('/', cs[k], w))
  }

  /** The rows of a group, border first. */
  function GroupRows(group: seq<string>, w: nat): (rows: seq<string>)
    requires forall j :: 0 <= j < |group| ==> Fits(group[j], w)
    ensures forall k :: 0 <= k < |rows| ==> |rows[k]| == w + 4
    ensures |rows| >= |group| + 1
  {
    [Border(w)] + LinesRows(group, w)
  }

  function LinesRows(lines: seq<string>, w: nat): (rows: seq<string>)
    requires forall j :: 0 <= j < |lines| ==> Fits(lines[j], w)
    ensures forall k :: 0 <= k < |rows| ==> |rows[k]| == w + 4
    ensures |rows| >= |lines|
  {
    if |lines| == 0 then [] else LineRows(lines[0], w) + LinesRows(lines[1..], w)
  }

  /** Every group's rows, then the closing border. */
  function Rows(groups: seq<seq<string>>, w: nat): (rows: seq<string>)
    requires forall i, j :: 0 <= i < |groups| && 0 <= j < |groups[i]| ==> Fits(groups[i][j], w)
    ensures forall k :: 0 <= k < |rows| ==> |rows[k]| == w + 4
    ensures |rows| >= |groups| + 1
  {
    if |groups| == 0 then [Border(w)]
    else GroupRows(groups[0], w) + Rows(groups[1..], w)
  }

  /** The rows cut at every border row: the runs of rows between one `+`
      row and the next, with the run before the first border first. */
  function SplitAtBorders(rows: seq<string>): (runs: seq<seq<string>>)
    ensures 1 <= |runs|
  {
    if |rows| == 0 then [[]]
    else
      var rest := SplitAtBorders(rows[1..]);
      if |rows[0]| > 0 && rows[0][0] == '+' then [[]] + rest
      else [[rows[0]] + rest[0]] + rest[1..]
  }

  /** The line rows of every group, one run per group. */
  function GroupsRows(groups: seq<seq<string>>, w: nat): (runs: seq<seq<string>>)
    requires forall i, j :: 0 <= i < |groups| && 0 <= j < |groups[i]| ==> Fits(groups[i][j], w)
    ensures |runs| == |groups|
  {
    if |groups| == 0 then [] else [LinesRows(groups[0], w)] + GroupsRows(groups[1..], w)
  }

  /** Run `i` is the line rows of group `i`. */
  lemma {:induction false} GroupsRowsAt(groups: seq<seq<string>>, w: nat, i: nat)
    requires forall i, j :: 0 <= i < |groups| && 0 <= j < |groups[i]| ==> Fits(groups[i][j], w)
    requires i < |groups|
    ensures GroupsRows(groups, w)[i] == LinesRows(groups[i], w)
    decreases i
  {
    if i > 0 {
      GroupsRowsAt(groups[1..], w, i - 1);
      assert groups[1..][i - 1] == groups[i];
    }
  }

  /** No row that a line produces looks like a border. */
  lemma {:induction false} LinesNoBorder(lines: seq<string>, w: nat)
    requires forall j :: 0 <= j < |lines| ==> Fits(lines[j], w)
    ensures forall k :: 0 <= k < |LinesRows(lines, w)| ==>
      |LinesRows(lines, w)[k]| > 0 && LinesRows(lines, w)[k][0] != '+'
    decreases |lines|
  {
    if |lines| > 0 {
      LinesNoBorder(lines[1..], w);
      var head, tail := LineRows(lines[0], w), LinesRows(lines[1..], w);
      assert LinesRows(lines, w) == head + tail;
      forall k | 0 <= k < |head + tail|
        ensures |(head + tail)[k]| > 0 && (head + tail)[k][0] != '+'
      {
        if k >= |head| {
          assert (head + tail)[k] == tail[k - |head|];
        }
      }
    }
  }

  /** Rows with no border among them join the first run of what follows. */
  lemma {:induction false} SplitContent(content: seq<string>, tail: seq<string>)
    requires forall k :: 0 <= k < |content| ==> |content[k]| > 0 && content[k][0] != '+'
    ensures var s := SplitAtBorders(tail);
      SplitAtBorders(content + tail) == [content + s[0]] + s[1..]
    decreases |content|
  {
    if |content| == 0 {
      var t := SplitAtBorders(tail);
      assert content + tail == tail;
      assert content + t[0] == t[0];
      assert [t[0]] + t[1..] == t;
    } else {
      SplitContent(content[1..], tail);
      assert (content + tail)[1..] == content[1..] + tail;
      assert [content[0]] + (content[1..] + SplitAtBorders(tail)[0]) == content + SplitAtBorders(tail)[0];
    }
  }

  /** Cut at its borders, the box is: nothing before the first border, the
      line rows of each group in order, and nothing after the closing
      border.  So a border opens every group and one closes the box. */
  lemma {:induction false} RowsSplit(groups: seq<seq<string>>, w: nat)
    requires forall i, j :: 0 <= i < |groups| && 0 <= j < |groups[i]| ==> Fits(groups[i][j], w)
    ensures SplitAtBorders(Rows(groups, w)) == [[]] + GroupsRows(groups, w) + [[]]
    decreases |groups|
  {
    if |groups| == 0 {
      BorderFirst(Border(w), []);
      assert [Border(w)] + [] == [Border(w)];
    } else {
      var lines, later := LinesRows(groups[0], w), Rows(groups[1..], w);
      var rest := GroupsRows(groups[1..], w);
      RowsSplit(groups[1..], w);
      LinesNoBorder(groups[0], w);
      RowsCons(groups, w);
      GroupStep(Border(w), lines, later, rest);
    }
  }

  /** The box of several groups is the first group's border and line rows,
      then the box of the others. */
  lemma RowsCons(groups: seq<seq<string>>, w: nat)
    requires forall i, j :: 0 <= i < |groups| && 0 <= j < |groups[i]| ==> Fits(groups[i][j], w)
    requires |groups| > 0
    ensures Rows(groups, w) == [Border(w)] + (LinesRows(groups[0], w) + Rows(groups[1..], w))
  {
    Regroup([Border(w)], LinesRows(groups[0], w), Rows(groups[1..], w), []);
    assert Rows(groups[1..], w) + [] == Rows(groups[1..], w);
  }

  /** A border, then rows with no border among them, then rows that split
      into an empty run, `rest` and an empty run: the content becomes a
      run of its own in front of `rest`. */
  lemma GroupStep(border: string, lines: seq<string>, later: seq<string>, rest: seq<seq<string>>)
    requires |border| > 0 && border[0] == '+'
    requires forall k :: 0 <= k < |lines| ==> |lines[k]| > 0 && lines[k][0] != '+'
    requires SplitAtBorders(later) == [[]] + rest + [[]]
    ensures SplitAtBorders([border] + (lines + later)) == [[]] + ([lines] + rest) + [[]]
  {
    SplitContent(lines, later);
    var s := SplitAtBorders(later);
    assert s[0] == [] && s[1..] == rest + [[]];
    assert lines + s[0] == lines;
    BorderFirst(border, lines + later);
    Regroup([[]], [lines], rest, [[]]);
  }

  lemma Regroup<T>(a: seq<T>, b: seq<T>, c: seq<T>, d: seq<T>)
    ensures a + (b + (c + d)) == a + (b + c) + d
  {
  }

  /** A border row starts a new run. */
  lemma BorderFirst(border: string, after: seq<string>)
    requires |border| > 0 && border[0] == '+'
    ensures SplitAtBorders([border] + after) == [[]] + SplitAtBorders(after)
  {
    assert ([border] + after)[1..] == after;
  }

  /** Each row followed by a newline. */
  function Lines(rows: seq<string>): string {
    if |rows| == 0 then "" else rows[0] + "\n" + Lines(rows[1..])
  }

  /** The column width suffices for every line. */
  lemma WidthFits(groups: seq<seq<string>>)
    ensures forall i, j :: 0 <= i < |groups| && 0 <= j < |groups[i]| ==> Fits(groups[i][j], Width(groups))
  {
    WidthIsCappedMax(groups);
  }

  /** The whole box for `groups`. */
  function Box(groups: seq<seq<string>>): string {
    WidthFits(groups);
    Lines(Rows(groups, Width(groups)))
  }

  /** A row starts and ends with the same marker: `+` for a border, `|`
      for a line that fits, `/` for a piece of a wrapped line. */
  predicate Framed(row: string) {
    2 <= |row| && row[0] == row[|row| - 1] && row[0] in "+|/"
  }

  lemma {:induction false} RowsFramed(groups: seq<seq<string>>, w: nat)
    requires forall i, j :: 0 <= i < |groups| && 0 <= j < |groups[i]| ==> Fits(groups[i][j], w)
    ensures forall k :: 0 <= k < |Rows(groups, w)| ==> Framed(Rows(groups, w)[k])
    decreases |groups|
  {
    if |groups| > 0 {
      RowsFramed(groups[1..], w);
      LinesFramed(groups[0], w);
    }
  }

  lemma {:induction false} LinesFramed(lines: seq<string>, w: nat)
    requires forall j :: 0 <= j < |lines| ==> Fits(lines[j], w)
    ensures forall k :: 0 <= k < |LinesRows(lines, w)| ==> Framed(LinesRows(lines, w)[k])
    decreases |lines|
  {
    if |lines| > 0 {
      LinesFramed(lines[1..], w);
    }
  }
}

=== FILE: message.dfy ===
/** `decode_dns_message`: the header, then the question, answer, authority
    and additional sections in that order, each section's item count taken
    from the header and each section starting where the previous one ended.
    Any failure aborts the whole decode; bytes after the last record are
    never looked at. */
module Message {
  import opened Wire
  import opened Header
  import opened Records
  import opened Sections

  datatype Message = Message(header: Header, question: seq<Question>, answer: seq<RR>, authority: seq<RR>, additional: seq<RR>)

  function DecodeMessage(buf: Buffer): (r: Result<Message>)
    ensures |buf| < HeaderSize ==> r == Err(Truncated)
    ensures r.Ok? ==> && DecodeHeader(buf) == Ok((r.value.header, HeaderSize))
                      && |r.value.question| == r.value.header.qdcount
                      && |r.value.answer| == r.value.header.ancount
                      && |r.value.authority| == r.value.header.nscount
                      && |r.value.additional| == r.value.header.arcount
  {
    var hd :- DecodeHeader(buf);
    var h := hd.0;
    var qd :- Repeat(DecodeQuestion, buf, hd.1, h.qdcount);
    var an :- Repeat(DecodeRR, buf, qd.1, h.ancount);
    var ns :- Repeat(DecodeRR, buf, an.1, h.nscount);
    var ar :- Repeat(DecodeRR, buf, ns.1, h.arcount);
    Ok(Message(h, qd.0, an.0, ns.0, ar.0))
  }

  /** Where the four sections of `m` lie: `qo`, `ao`, `no` and `ro` hold
      the offsets at which the items of each section start, followed by the
      offset where the section ends; the header's counts give the lengths;
      the question section starts right after the header and every other
      section right where the one before it ends. */
  predicate MessageAt(buf: Buffer, m: Message, qo: seq<nat>, ao: seq<nat>, no: seq<nat>, ro: seq<nat>) {
    && DecodeHeader(buf) == Ok((m.header, HeaderSize))
    && |m.question| == m.header.qdcount && |m.answer| == m.header.ancount
    && |m.authority| == m.header.nscount && |m.additional| == m.header.arcount
    && Chain(DecodeQuestion, buf, m.question, qo) && qo[0] == HeaderSize
    && Chain(DecodeRR, buf, m.answer, ao) && ao[0] == qo[|m.question|]
    && Chain(DecodeRR, buf, m.authority, no) && no[0] == ao[|m.answer|]
    && Chain(DecodeRR, buf, m.additional, ro) && ro[0] == no[|m.authority|]
  }

  /** The decoder returns `m` exactly when `m`'s sections lie in the buffer
      as `MessageAt` describes. */
  lemma DecodeMessageIff(buf: Buffer, m: Message)
    ensures DecodeMessage(buf) == Ok(m) <==> exists qo, ao, no, ro :: MessageAt(buf, m, qo, ao, no, ro)
  {
    if DecodeMessage(buf) == Ok(m) {
      MessageLaidOut(buf, m);
    }
    if exists qo, ao, no, ro :: MessageAt(buf, m, qo, ao, no, ro) {
      var qo, ao, no, ro :| MessageAt(buf, m, qo, ao, no, ro);
      RepeatOfChain(DecodeQuestion, buf, m.question, qo);
      RepeatOfChain(DecodeRR, buf, m.answer, ao);
      RepeatOfChain(DecodeRR, buf, m.authority, no);
      RepeatOfChain(DecodeRR, buf, m.additional, ro);
    }
  }

  lemma MessageLaidOut(buf: Buffer, m: Message)
    requires DecodeMessage(buf) == Ok(m)
    ensures exists qo, ao, no, ro :: MessageAt(buf, m, qo, ao, no, ro)
  {
    var h := m.header;
    var (_, qEnd) := Repeat(DecodeQuestion, buf, HeaderSize, h.qdcount).value;
    var (_, aEnd) := Repeat(DecodeRR, buf, qEnd, h.ancount).value;
    var (_, nEnd) := Repeat(DecodeRR, buf, aEnd, h.nscount).value;
    var (_, rEnd) := Repeat(DecodeRR, buf, nEnd, h.arcount).value;
    ChainOfRepeat(DecodeQuestion, buf, HeaderSize, h.qdcount, m.question, qEnd);
    ChainOfRepeat(DecodeRR, buf, qEnd, h.ancount, m.answer, aEnd);
    ChainOfRepeat(DecodeRR, buf, aEnd, h.nscount, m.authority, nEnd);
    ChainOfRepeat(DecodeRR, buf, nEnd, h.arcount, m.additional, rEnd);
    var qo :| Chain(DecodeQuestion, buf, m.question, qo) && qo[0] == HeaderSize && qo[|m.question|] == qEnd;
    var ao :| Chain(DecodeRR, buf, m.answer, ao) && ao[0] == qEnd && ao[|m.answer|] == aEnd;
    var no :| Chain(DecodeRR, buf, m.authority, no) && no[0] == aEnd && no[|m.authority|] == nEnd;
    var ro :| Chain(DecodeRR, buf, m.additional, ro) && ro[0] == nEnd && ro[|m.additional|] == rEnd;
    assert MessageAt(buf, m, qo, ao, no, ro);
  }

  /** A message fails to decode only because a read ran past the end of
      the buffer or compression pointers nested too deeply. */
  lemma DecodeMessageErrors(buf: Buffer)
    ensures DecodeMessage(buf).Err? ==> DecodeMessage(buf).error in {Truncated, PointerDepth}
  {
    var allowed := {Truncated, PointerDepth};
    if |buf| >= HeaderSize {
      var h := DecodeHeader(buf).value.0;
      RepeatErrors(DecodeQuestion, buf, HeaderSize, h.qdcount, allowed);
      var qd := Repeat(DecodeQuestion, buf, HeaderSize, h.qdcount);
      if qd.Ok? {
        RepeatErrors(DecodeRR, buf, qd.value.1, h.ancount, allowed);
        var an := Repeat(DecodeRR, buf, qd.value.1, h.ancount);
        if an.Ok? {
          RepeatErrors(DecodeRR, buf, an.value.1, h.nscount, allowed);
          var ns := Repeat(DecodeRR, buf, an.value.1, h.nscount);
          if ns.Ok? {
            RepeatErrors(DecodeRR, buf, ns.value.1, h.arcount, allowed);
          }
        }
      }
    }
  }
}

=== FILE: names.dfy ===
/** Domain-name decoding (section 4.1.4 of RFC 1035): length-prefixed
    labels ended by a zero byte, or by a two-byte compression pointer whose
    top two bits are set.  `decode_labels` in decode-dns-buffer.py follows
    pointers by plain recursion with no guard; Python 2 stops such a
    recursion with `RuntimeError: maximum recursion depth exceeded` once its
    recursion limit is reached.  The model makes that bound explicit as
    `fuel`, the number of nested pointers still allowed. */
module Names {
  import opened Wire

  /** A label's raw bytes, as `struct.unpack_from("!%ds")` returns them. */
  type Label = seq<Byte>

  /** Labels in the order they appear in the name. */
  type Name = seq<Label>

  /** Python's default recursion limit: a pointer chain this deep fails. */
  const RecursionLimit: nat := 1000

  /** A length byte whose top two bits are `11` starts a pointer. */
  predicate IsPointer(length: Byte) {
    length / 64 == 3
  }

  /** The 14-bit offset a pointer at `off` designates: the 16-bit word with
      its top two bits masked off (`& 0x3FFF`). */
  function PointerTarget(buf: Buffer, off: nat): (t: nat)
    requires off + 2 <= |buf|
    ensures t < 0x4000
  {
    U16At(buf, off) % 0x4000
  }

  /** `decode_labels`: the labels of the name at `off` and the offset just
      past its terminator or past its pointer. */
  function DecodeName(buf: Buffer, off: nat, fuel: nat): (r: Result<(Name, nat)>)
    ensures r.Ok? ==> off < r.value.1 <= |buf|
    ensures off >= |buf| ==> r == Err(Truncated)
    ensures r.Err? ==> r.error == Truncated || r.error == PointerDepth
    decreases fuel, |buf| - off
  {
    if off >= |buf| then Err(Truncated)
    else
      var length := buf[off];
      if IsPointer(length) then
        if off + 2 > |buf| then Err(Truncated)
        else if fuel == 0 then Err(PointerDepth)
        else
          match DecodeName(buf, PointerTarget(buf, off), fuel - 1)
          case Err(e) => Err(e)
          case Ok((suffix, _)) => Ok((suffix, off + 2))
      else if length == 0 then Ok(([], off + 1))
      else if off + 1 + length > |buf| then Err(Truncated)
      else
        match DecodeName(buf, off + 1 + length, fuel)
        case Err(e) => Err(e)
        case Ok((rest, end)) => Ok(([buf[off + 1..off + 1 + length]] + rest, end))
  }

  /** The name at `off` with the recursion bound of the running program. */
  function ReadName(buf: Buffer, off: nat): (r: Result<(Name, nat)>)
    ensures r.Ok? ==> off < r.value.1 <= |buf|
    ensures off >= |buf| ==> r == Err(Truncated)
    ensures r.Err? ==> r.error == Truncated || r.error == PointerDepth
  {
    DecodeName(buf, off, RecursionLimit)
  }

  /** Labels the decoder reads back as labels: non-empty and with a length
      byte below 192 (the decoder accepts 64..191 too, unlike the RFC). */
  predicate ValidLabels(name: Name) {
    forall i :: 0 <= i < |name| ==> 0 < |name[i]| < 192
  }

  /** The bytes the labels occupy: each label preceded by its length. */
  function EncodeLabels(name: Name): (b: Buffer)
    requires ValidLabels(name)
    ensures |b| == WireLength(name)
  {
    if name == [] then [] else [|name[0]|] + name[0] + EncodeLabels(name[1..])
  }

  /** The sum of one plus the length of every label. */
  function WireLength(name: Name): nat {
    if name == [] then 0 else 1 + |name[0]| + WireLength(name[1..])
  }

  /** An uncompressed name: its labels and the zero terminator. */
  function EncodeName(name: Name): (b: Buffer)
    requires ValidLabels(name)
    ensures |b| == WireLength(name) + 1
  {
    EncodeLabels(name) + [0]
  }

  /** The two bytes of a compression pointer to `target`. */
  function EncodePointer(target: nat): (b: Buffer)
    requires target < 0x4000
    ensures |b| == 2
  {
    [0xC0 + target / 256, target % 256]
  }

  lemma PointerBytes(buf: Buffer, off: nat, target: nat)
    requires target < 0x4000 && At(buf, off, EncodePointer(target))
    ensures off + 2 <= |buf| && IsPointer(buf[off]) && PointerTarget(buf, off) == target
  {
    AtSlice(buf, off, EncodePointer(target));
    assert buf[off] == EncodePointer(target)[0] && buf[off + 1] == EncodePointer(target)[1];
  }

  /** A name written without pointers decodes to its labels, in order, and
      the offset advances by the labels' wire length plus the terminator. */
  lemma {:induction false} DecodePlainName(buf: Buffer, off: nat, name: Name, fuel: nat)
    requires ValidLabels(name) && At(buf, off, EncodeName(name))
    ensures DecodeName(buf, off, fuel) == Ok((name, off + WireLength(name) + 1))
    decreases |name|
  {
    if name == [] {
      assert buf[off] == EncodeName(name)[0];
    } else {
      PlainTail(buf, off, name);
      DecodePlainName(buf, off + 1 + |name[0]|, name[1..], fuel);
      PlainStep(buf, off, name, fuel, off + WireLength(name) + 1);
    }
  }

  /** The rest of a plain name, after its first label, is itself a plain
      name written right behind that label. */
  lemma PlainTail(buf: Buffer, off: nat, name: Name)
    requires ValidLabels(name) && name != [] && At(buf, off, EncodeName(name))
    ensures off + 1 + |name[0]| <= |buf|
    ensures buf[off] == |name[0]| && buf[off + 1..off + 1 + |name[0]|] == name[0]
    ensures var next := off + 1 + |name[0]|;
      && ValidLabels(name[1..])
      && At(buf, next, EncodeName(name[1..]))
      && next + WireLength(name[1..]) + 1 == off + WireLength(name) + 1
  {
    FirstLabel(buf, off, name, [0]);
  }

  /** The inductive step for plain names: the first label in front of the
      decoded remainder. */
  lemma PlainStep(buf: Buffer, off: nat, name: Name, fuel: nat, end: nat)
    requires name != [] && 0 < |name[0]| < 192
    requires off + 1 + |name[0]| <= |buf| && buf[off] == |name[0]| && buf[off + 1..off + 1 + |name[0]|] == name[0]
    requires DecodeName(buf, off + 1 + |name[0]|, fuel) == Ok((name[1..], end))
    ensures DecodeName(buf, off, fuel) == Ok((name, end))
  {
    assert name[1..] + [] == name[1..];
    PrependLabel(buf, off, name, fuel, [], end);
    assert name + [] == name;
  }

  /** A bare pointer yields the target's labels and advances by two. */
  lemma DecodePointer(buf: Buffer, off: nat, target: nat, fuel: nat, suffix: Name, targetEnd: nat)
    requires target < 0x4000 && 0 < fuel && At(buf, off, EncodePointer(target))
    requires DecodeName(buf, target, fuel - 1) == Ok((suffix, targetEnd))
    ensures DecodeName(buf, off, fuel) == Ok((suffix, off + 2))
  {
    PointerBytes(buf, off, target);
  }

  /** One ordinary label in front of whatever the rest of the name decodes to. */
  lemma DecodeLabel(buf: Buffer, off: nat, head: Label, fuel: nat, rest: Name, end: nat)
    requires 0 < |head| < 192
    requires off + 1 + |head| <= |buf| && buf[off] == |head| && buf[off + 1..off + 1 + |head|] == head
    requires DecodeName(buf, off + 1 + |head|, fuel) == Ok((rest, end))
    ensures DecodeName(buf, off, fuel) == Ok(([head] + rest, end))
  {
  }

  /** The encoded labels of a non-empty name followed by `trailer`, split
      after the first label. */
  lemma FirstLabel(buf: Buffer, off: nat, name: Name, trailer: Buffer)
    requires ValidLabels(name) && name != []
    requires At(buf, off, EncodeLabels(name) + trailer)
    ensures off + 1 + |name[0]| <= |buf|
    ensures buf[off] == |name[0]| && buf[off + 1..off + 1 + |name[0]|] == name[0]
    ensures At(buf, off + 1 + |name[0]|, EncodeLabels(name[1..]) + trailer)
    ensures WireLength(name) == 1 + |name[0]| + WireLength(name[1..])
  {
    var h, t := name[0], name[1..];
    var length: Buffer := [|h|];
    LabelsCons(name, trailer);
    AtAppend(buf, off, length + h, EncodeLabels(t) + trailer);
    AtAppend(buf, off, length, h);
    AtSlice(buf, off + 1, h);
  }

  /** The encoding of a non-empty name starts with its first label. */
  lemma LabelsCons(name: Name, trailer: Buffer)
    requires ValidLabels(name) && name != []
    ensures EncodeLabels(name) + trailer == [|name[0]| as Byte] + name[0] + (EncodeLabels(name[1..]) + trailer)
    ensures WireLength(name) == 1 + |name[0]| + WireLength(name[1..])
  {
    var a, b := [|name[0]| as Byte] + name[0], EncodeLabels(name[1..]);
    assert EncodeLabels(name) == a + b;
    AppendAssoc(a, b, trailer);
  }

  lemma AppendAssoc(a: Buffer, b: Buffer, c: Buffer)
    ensures (a + b) + c == a + (b + c)
  {
  }

  /** A name written as labels ending in a pointer decodes to those labels
      followed by the labels at the target, and the offset advances to just
      past the pointer, however long the target name is. */
  lemma {:induction false} DecodeCompressedName(buf: Buffer, off: nat, name: Name, target: nat, fuel: nat, suffix: Name, targetEnd: nat)
    requires ValidLabels(name) && target < 0x4000 && 0 < fuel
    requires At(buf, off, EncodeLabels(name) + EncodePointer(target))
    requires DecodeName(buf, target, fuel - 1) == Ok((suffix, targetEnd))
    ensures DecodeName(buf, off, fuel) == Ok((name + suffix, off + WireLength(name) + 2))
    decreases |name|
  {
    if name == [] {
      assert EncodeLabels(name) + EncodePointer(target) == EncodePointer(target);
      DecodePointer(buf, off, target, fuel, suffix, targetEnd);
      assert name + suffix == suffix;
    } else {
      CompressedTail(buf, off, name, target);
      DecodeCompressedName(buf, off + 1 + |name[0]|, name[1..], target, fuel, suffix, targetEnd);
      PrependLabel(buf, off, name, fuel, suffix, off + WireLength(name) + 2);
    }
  }

  /** The rest of a compressed name, after its first label, is itself a
      compressed name written right behind that label. */
  lemma CompressedTail(buf: Buffer, off: nat, name: Name, target: nat)
    requires ValidLabels(name) && name != [] && target < 0x4000
    requires At(buf, off, EncodeLabels(name) + EncodePointer(target))
    ensures off + 1 + |name[0]| <= |buf|
    ensures buf[off] == |name[0]| && buf[off + 1..off + 1 + |name[0]|] == name[0]
    ensures var next := off + 1 + |name[0]|;
      && ValidLabels(name[1..])
      && At(buf, next, EncodeLabels(name[1..]) + EncodePointer(target))
      && next + WireLength(name[1..]) + 2 == off + WireLength(name) + 2
  {
    FirstLabel(buf, off, name, EncodePointer(target));
  }

  /** The first label of `name`, in front of the decoded remainder. */
  lemma PrependLabel(buf: Buffer, off: nat, name: Name, fuel: nat, suffix: Name, end: nat)
    requires name != [] && 0 < |name[0]| < 192
    requires off + 1 + |name[0]| <= |buf| && buf[off] == |name[0]| && buf[off + 1..off + 1 + |name[0]|] == name[0]
    requires DecodeName(buf, off + 1 + |name[0]|, fuel) == Ok((name[1..] + suffix, end))
    ensures DecodeName(buf, off, fuel) == Ok((name + suffix, end))
  {
    DecodeLabel(buf, off, name[0], fuel, name[1..] + suffix, end);
    assert [name[0]] + (name[1..] + suffix) == name + suffix;
  }

  /** What may end a name: the zero byte, or the two bytes of a pointer. */
  predicate Terminator(trailer: Buffer) {
    trailer == [0] || (|trailer| == 2 && IsPointer(trailer[0]))
  }

  /** A buffer that stops short inside a name, in a length byte, inside a
      label or between the two bytes of the final pointer, fails with
      Truncated: the `struct.error` of a read past the end. */
  lemma {:induction false} TruncatedLabels(buf: Buffer, off: nat, name: Name, trailer: Buffer, k: nat, fuel: nat)
    requires ValidLabels(name) && Terminator(trailer)
    requires k < |EncodeLabels(name) + trailer| && |buf| == off + k
    requires At(buf, off, (EncodeLabels(name) + trailer)[..k])
    ensures DecodeName(buf, off, fuel) == Err(Truncated)
    decreases |name|
  {
    var e := EncodeLabels(name) + trailer;
    if k > 0 {
      AtSlice(buf, off, e[..k]);
      assert buf[off] == e[0];
      if name != [] {
        LabelsCons(name, trailer);
        var a: Buffer := [|name[0]| as Byte] + name[0];
        var rest := EncodeLabels(name[1..]) + trailer;
        if k >= |a| {
          assert e[..k] == a + rest[..k - |a|];
          AtAppend(buf, off, a, rest[..k - |a|]);
          assert ValidLabels(name[1..]) by {
            forall i | 0 <= i < |name[1..]| ensures 0 < |name[1..][i]| < 192 {
              assert name[1..][i] == name[i + 1];
            }
          }
          TruncatedLabels(buf, off + |a|, name[1..], trailer, k - |a|, fuel);
        }
      }
    }
  }

  /** A buffer that ends inside an uncompressed name fails with Truncated. */
  lemma TruncatedName(buf: Buffer, off: nat, name: Name, k: nat, fuel: nat)
    requires ValidLabels(name) && k < |EncodeName(name)| && |buf| == off + k
    requires At(buf, off, EncodeName(name)[..k])
    ensures DecodeName(buf, off, fuel) == Err(Truncated)
  {
    TruncatedLabels(buf, off, name, [0], k, fuel);
  }

  /** A buffer that ends inside a name written as labels and a pointer,
      the pointer's last byte included, fails with Truncated. */
  lemma TruncatedCompressedName(buf: Buffer, off: nat, name: Name, target: nat, k: nat, fuel: nat)
    requires ValidLabels(name) && target < 0x4000
    requires k < |EncodeLabels(name) + EncodePointer(target)| && |buf| == off + k
    requires At(buf, off, (EncodeLabels(name) + EncodePointer(target))[..k])
    ensures DecodeName(buf, off, fuel) == Err(Truncated)
  {
    assert IsPointer(EncodePointer(target)[0]);
    TruncatedLabels(buf, off, name, EncodePointer(target), k, fuel);
  }

  /** A pointer whose target fails fails with the target's error. */
  lemma PointerTargetFails(buf: Buffer, off: nat, target: nat, fuel: nat, e: Error)
    requires target < 0x4000 && 0 < fuel && At(buf, off, EncodePointer(target))
    requires DecodeName(buf, target, fuel - 1) == Err(e)
    ensures DecodeName(buf, off, fuel) == Err(e)
  {
    PointerBytes(buf, off, target);
  }

  /** Labels followed by a pointer whose target fails: the whole name fails
      with the target's error, however many labels came before. */
  lemma {:induction false} CompressedTargetFails(buf: Buffer, off: nat, name: Name, target: nat, fuel: nat, e: Error)
    requires ValidLabels(name) && target < 0x4000 && 0 < fuel
    requires At(buf, off, EncodeLabels(name) + EncodePointer(target))
    requires DecodeName(buf, target, fuel - 1) == Err(e)
    ensures DecodeName(buf, off, fuel) == Err(e)
    decreases |name|
  {
    if name == [] {
      assert EncodeLabels(name) + EncodePointer(target) == EncodePointer(target);
      PointerTargetFails(buf, off, target, fuel, e);
    } else {
      CompressedTail(buf, off, name, target);
      CompressedTargetFails(buf, off + 1 + |name[0]|, name[1..], target, fuel, e);
    }
  }

  /** A pointer met with no fuel left fails with PointerDepth, after any
      number of labels: the point where the unguarded recursion of
      `decode_labels` hits Python's recursion limit. */
  lemma {:induction false} PointerDepthAtZero(buf: Buffer, off: nat, name: Name, target: nat)
    requires ValidLabels(name) && target < 0x4000
    requires At(buf, off, EncodeLabels(name) + EncodePointer(target))
    ensures DecodeName(buf, off, 0) == Err(PointerDepth)
    decreases |name|
  {
    if name == [] {
      assert EncodeLabels(name) + EncodePointer(target) == EncodePointer(target);
      PointerBytes(buf, off, target);
    } else {
      CompressedTail(buf, off, name, target);
      PointerDepthAtZero(buf, off + 1 + |name[0]|, name[1..], target);
    }
  }

  /** More fuel never changes a successful decode: the bound only cuts off
      pointer chains that are too deep. */
  lemma {:induction false} FuelMonotone(buf: Buffer, off: nat, fuel: nat, more: nat)
    requires fuel <= more
    requires DecodeName(buf, off, fuel).Ok?
    ensures DecodeName(buf, off, more) == DecodeName(buf, off, fuel)
    decreases fuel, |buf| - off
  {
    var length := buf[off];
    if IsPointer(length) {
      FuelMonotone(buf, PointerTarget(buf, off), fuel - 1, more - 1);
    } else if length != 0 {
      FuelMonotone(buf, off + 1 + length, fuel, more);
    }
  }

  /** A pointer to itself never yields a name, whatever the bound: the
      unguarded recursion of `decode_labels` goes on until Python's
      recursion limit stops it. */
  lemma {:induction false} SelfPointerFails(buf: Buffer, off: nat, fuel: nat)
    requires off < 0x4000 && At(buf, off, EncodePointer(off))
    ensures DecodeName(buf, off, fuel) == Err(PointerDepth)
    decreases fuel
  {
    PointerBytes(buf, off, off);
    if fuel > 0 {
      SelfPointerFails(buf, off, fuel - 1);
    }
  }
}

=== FILE: records.dfy ===
/** Questions and resource records (sections 4.1.2 and 4.1.3 of RFC 1035).
    A record is an owner name, ten fixed bytes ("!2HIH": type, class, ttl,
    rdlength) and a payload that is decoded for types A, NS and SOA only.
    For every other type nothing after the fixed part is consumed, so a
    record with rdata leaves the next decode inside that rdata. */
module Records {
  import opened Wire
  import opened Names
  import opened Text

  const TypeA: nat := 1
  const TypeNS: nat := 2
  const TypeSOA: nat := 6

  /** Size of "!2H", the type and class after a question name. */
  const QuestionFixedSize: nat := 4
  /** Size of "!2HIH", the fixed fields after a record's owner name. */
  const RecordFixedSize: nat := 10
  /** Size of "!5I", the five counters that end an SOA payload. */
  const SoaCountersSize: nat := 20

  datatype Question = Question(qname: Name, qtype: nat, qclass: nat)

  /** The payload fields `decode_rr` adds to the record for known types. */
  datatype RData =
    | Address(address: string)
    | NameServer(nsdname: Name)
    | StartOfAuthority(mname: Name, rname: Name, serial: nat, refresh: nat, retry: nat, expire: nat, minimum: nat)
    | Undecoded

  datatype RR = RR(name: Name, rtype: nat, rclass: nat, ttl: nat, rdlength: nat, data: RData)

  /** `'%i.%i.%i.%i' % (ip1, ip2, ip3, ip4)`. */
  function DottedQuad(a: seq<Byte>): string
    requires |a| == 4
  {
    Join([Dec(a[0]), Dec(a[1]), Dec(a[2]), Dec(a[3])], '.')
  }

  /** Reads a dotted quad back into its four bytes: the partner of
      `DottedQuad`. */
  function ParseDottedQuad(s: string): (r: seq<Byte>)
    ensures |r| == 4
  {
    var parts := Split(s, '.');
    if |parts| == 4 && (forall i :: 0 <= i < 4 ==> AllDigits(parts[i]) && ParseDec(parts[i]) < 256)
    then [ParseDec(parts[0]), ParseDec(parts[1]), ParseDec(parts[2]), ParseDec(parts[3])]
    else [0, 0, 0, 0]
  }

  /** The address text loses nothing: its four fields read back as the
      four bytes, so different addresses render differently. */
  lemma DottedQuadInverse(a: seq<Byte>)
    requires |a| == 4
    ensures ParseDottedQuad(DottedQuad(a)) == a
  {
    var parts := [Dec(a[0]), Dec(a[1]), Dec(a[2]), Dec(a[3])];
    forall i | 0 <= i < 4
      ensures Free(parts[i], '.') && ParseDec(parts[i]) == a[i]
    {
      DecFree(a[i], '.');
      ParseDecOfDec(a[i]);
    }
    SplitJoin(parts, '.');
  }

  /** `decode_question`'s loop body: a name, then "!2H". */
  function DecodeQuestion(buf: Buffer, off: nat): (r: Result<(Question, nat)>)
    ensures ReadName(buf, off).Err? ==> r == Err(ReadName(buf, off).error)
    ensures ReadName(buf, off).Ok? ==>
      var (qname, o) := ReadName(buf, off).value;
      if o + QuestionFixedSize <= |buf|
      then r.Ok? && r.value.0.qname == qname && r.value.1 == o + QuestionFixedSize
           && r.value.0.qtype == U16At(buf, o) && r.value.0.qclass == U16At(buf, o + 2)
           && r.value.0.qtype < Two16 && r.value.0.qclass < Two16
      else r == Err(Truncated)
  {
    var owner :- ReadName(buf, off);
    var o := owner.1;
    if o + QuestionFixedSize > |buf| then Err(Truncated)
    else Ok((Question(owner.0, U16At(buf, o), U16At(buf, o + 2)), o + QuestionFixedSize))
  }

  /** The type-specific tail of `decode_rr`, starting right after the fixed
      fields.  The record's rdlength is not an input: `decode_rr` never
      consults it. */
  function DecodeRData(buf: Buffer, p: nat, rtype: nat): (r: Result<(RData, nat)>)
    requires p <= |buf|
    ensures r.Ok? ==> (rtype == TypeA <==> r.value.0.Address?)
    ensures r.Ok? ==> (rtype == TypeNS <==> r.value.0.NameServer?)
    ensures r.Ok? ==> (rtype == TypeSOA <==> r.value.0.StartOfAuthority?)
    ensures rtype == TypeA ==>
      if p + 4 <= |buf| then r == Ok((Address(DottedQuad(buf[p..p + 4])), p + 4)) else r == Err(Truncated)
    ensures rtype == TypeNS ==>
      if ReadName(buf, p).Ok? then r == Ok((NameServer(ReadName(buf, p).value.0), ReadName(buf, p).value.1))
      else r == Err(ReadName(buf, p).error)
    ensures rtype == TypeSOA ==>
      if ReadName(buf, p).Err? then r == Err(ReadName(buf, p).error)
      else if ReadName(buf, ReadName(buf, p).value.1).Err? then r == Err(ReadName(buf, ReadName(buf, p).value.1).error)
      else if ReadName(buf, ReadName(buf, p).value.1).value.1 + SoaCountersSize > |buf| then r == Err(Truncated)
      else r.Ok?
    ensures rtype == TypeSOA && r.Ok? ==>
      && ReadName(buf, p).Ok? && r.value.0.mname == ReadName(buf, p).value.0
      && var q := r.value.1 - SoaCountersSize;
      && ReadName(buf, ReadName(buf, p).value.1) == Ok((r.value.0.rname, q))
      && p + 2 <= q && q + SoaCountersSize <= |buf|
      && r.value.0.serial == U32At(buf, q) && r.value.0.refresh == U32At(buf, q + 4) && r.value.0.retry == U32At(buf, q + 8)
      && r.value.0.expire == U32At(buf, q + 12) && r.value.0.minimum == U32At(buf, q + 16)
    ensures r.Ok? ==> p <= r.value.1 <= |buf|
    ensures r.Err? ==> r.error == Truncated || r.error == PointerDepth
    ensures rtype != TypeA && rtype != TypeNS && rtype != TypeSOA ==> r == Ok((Undecoded, p))
  {
    if rtype == TypeA then
      if p + 4 > |buf| then Err(Truncated)
      else Ok((Address(DottedQuad(buf[p..p + 4])), p + 4))
    else if rtype == TypeNS then
      var ns :- ReadName(buf, p);
      Ok((NameServer(ns.0), ns.1))
    else if rtype == TypeSOA then
      var m :- ReadName(buf, p);
      var rn :- ReadName(buf, m.1);
      var q := rn.1;
      if q + SoaCountersSize > |buf| then Err(Truncated)
      else Ok((StartOfAuthority(m.0, rn.0, U32At(buf, q), U32At(buf, q + 4), U32At(buf, q + 8),
                                U32At(buf, q + 12), U32At(buf, q + 16)), q + SoaCountersSize))
    else Ok((Undecoded, p))
  }

  /** The five counters of an SOA payload, in wire order. */
  function SoaCounters(d: RData): seq<nat>
    requires d.StartOfAuthority?
  {
    [d.serial, d.refresh, d.retry, d.expire, d.minimum]
  }

  /** `decode_rr`: owner name, the ten fixed bytes, then the payload. */
  function DecodeRR(buf: Buffer, off: nat): (r: Result<(RR, nat)>)
    ensures r.Ok? ==> off < r.value.1 <= |buf|
    ensures r.Err? ==> r.error == Truncated || r.error == PointerDepth
    ensures ReadName(buf, off).Err? ==> r == Err(ReadName(buf, off).error)
    ensures ReadName(buf, off).Ok? && ReadName(buf, off).value.1 + RecordFixedSize > |buf| ==> r == Err(Truncated)
    ensures ReadName(buf, off).Ok? && ReadName(buf, off).value.1 + RecordFixedSize <= |buf| ==>
      var o := ReadName(buf, off).value.1;
      var payload := DecodeRData(buf, o + RecordFixedSize, U16At(buf, o));
      if payload.Err? then r == Err(payload.error) else r.Ok?
    ensures r.Ok? ==>
      && ReadName(buf, off).Ok? && r.value.0.name == ReadName(buf, off).value.0
      && var o := ReadName(buf, off).value.1;
      && o + RecordFixedSize <= |buf|
      && r.value.0.rtype == U16At(buf, o) && r.value.0.rclass == U16At(buf, o + 2)
      && r.value.0.ttl == U32At(buf, o + 4) && r.value.0.rdlength == U16At(buf, o + 8)
      && DecodeRData(buf, o + RecordFixedSize, r.value.0.rtype) == Ok((r.value.0.data, r.value.1))
    ensures r.Ok? ==>
      (r.value.0.data.Undecoded? <==> r.value.0.rtype != TypeA && r.value.0.rtype != TypeNS && r.value.0.rtype != TypeSOA)
  {
    var owner :- ReadName(buf, off);
    var o := owner.1;
    if o + RecordFixedSize > |buf| then Err(Truncated)
    else
      var rtype := U16At(buf, o);
      var payload :- DecodeRData(buf, o + RecordFixedSize, rtype);
      Ok((RR(owner.0, rtype, U16At(buf, o + 2), U32At(buf, o + 4), U16At(buf, o + 8), payload.0), payload.1))
  }

  /** A record of any other type ends right after its ten fixed bytes,
      whatever its rdlength says. */
  lemma UndecodedEndsAfterFixedPart(buf: Buffer, off: nat, rr: RR, end: nat)
    requires DecodeRR(buf, off) == Ok((rr, end)) && rr.data.Undecoded?
    ensures end == ReadName(buf, off).value.1 + RecordFixedSize
    ensures rr.rtype != TypeA && rr.rtype != TypeNS && rr.rtype != TypeSOA
  {
  }

  // ---------------------------------------------------------------------
  // The record encoder, against which the record decoder is checked.
  // ---------------------------------------------------------------------

  /** A payload a record of type `rtype` can carry: the variant its type
      selects, with names the decoder reads back, counters that fit 32 bits
      and an address text in the form `DottedQuad` produces. */
  predicate WellFormedRData(rtype: nat, d: RData) {
    match d
    case Address(s) => rtype == TypeA && s == DottedQuad(ParseDottedQuad(s))
    case NameServer(n) => rtype == TypeNS && ValidLabels(n)
    case StartOfAuthority(m, rn, serial, refresh, retry, expire, minimum) =>
      && rtype == TypeSOA && ValidLabels(m) && ValidLabels(rn)
      && serial < Two32 && refresh < Two32 && retry < Two32 && expire < Two32 && minimum < Two32
    case Undecoded => rtype != TypeA && rtype != TypeNS && rtype != TypeSOA
  }

  predicate WellFormedRR(rr: RR) {
    && ValidLabels(rr.name)
    && rr.rtype < Two16 && rr.rclass < Two16 && rr.ttl < Two32 && rr.rdlength < Two16
    && WellFormedRData(rr.rtype, rr.data)
  }

  /** "!5I": the counters, each as four big-endian bytes. */
  function EncodeCounters(cs: seq<nat>): (b: Buffer)
    requires forall i :: 0 <= i < |cs| ==> cs[i] < Two32
    ensures |b| == 4 * |cs|
  {
    if cs == [] then [] else U32Bytes(cs[0]) + EncodeCounters(cs[1..])
  }

  /** The payload bytes: four address bytes, one name, or two names and the
      five counters.  A record of any other type carries none that the
      decoder reads. */
  function EncodeRData(rtype: nat, d: RData): (b: Buffer)
    requires WellFormedRData(rtype, d)
  {
    match d
    case Address(s) => ParseDottedQuad(s)
    case NameServer(n) => EncodeName(n)
    case StartOfAuthority(m, rn, _, _, _, _, _) => EncodeName(m) + EncodeName(rn) + EncodeCounters(SoaCounters(d))
    case Undecoded => []
  }

  /** "!2HIH": type, class, ttl and rdlength. */
  function EncodeFixed(rr: RR): (b: Buffer)
    requires WellFormedRR(rr)
    ensures |b| == RecordFixedSize
  {
    U16Bytes(rr.rtype) + U16Bytes(rr.rclass) + U32Bytes(rr.ttl) + U16Bytes(rr.rdlength)
  }

  /** A record written without compression: owner name, fixed part, payload. */
  function EncodeRR(rr: RR): (b: Buffer)
    requires WellFormedRR(rr)
  {
    EncodeName(rr.name) + EncodeFixed(rr) + EncodeRData(rr.rtype, rr.data)
  }

  /** Counters written back to back read back one by one. */
  lemma {:induction false} CountersRead(buf: Buffer, q: nat, cs: seq<nat>)
    requires forall i :: 0 <= i < |cs| ==> cs[i] < Two32
    requires At(buf, q, EncodeCounters(cs))
    ensures q + 4 * |cs| <= |buf|
    ensures forall i :: 0 <= i < |cs| ==> U32At(buf, q + 4 * i) == cs[i]
    decreases |cs|
  {
    AtSlice(buf, q, EncodeCounters(cs));
    if cs != [] {
      AtAppend(buf, q, U32Bytes(cs[0]), EncodeCounters(cs[1..]));
      U32Read(buf, q, cs[0]);
      CountersRead(buf, q + 4, cs[1..]);
      forall i | 1 <= i < |cs|
        ensures U32At(buf, q + 4 * i) == cs[i]
      {
        assert q + 4 * i == (q + 4) + 4 * (i - 1);
        assert cs[1..][i - 1] == cs[i];
      }
    }
  }

  /** Where the four fixed fields of an encoded record sit. */
  lemma FixedParts(buf: Buffer, o: nat, rr: RR)
    requires WellFormedRR(rr) && At(buf, o, EncodeFixed(rr))
    ensures o + RecordFixedSize <= |buf|
    ensures U16At(buf, o) == rr.rtype && U16At(buf, o + 2) == rr.rclass
    ensures U32At(buf, o + 4) == rr.ttl && U16At(buf, o + 8) == rr.rdlength
  {
    var t, c, l, d := U16Bytes(rr.rtype), U16Bytes(rr.rclass), U32Bytes(rr.ttl), U16Bytes(rr.rdlength);
    AtAppend(buf, o, t + c + l, d);
    AtAppend(buf, o, t + c, l);
    AtAppend(buf, o, t, c);
    U16Read(buf, o, rr.rtype);
    U16Read(buf, o + 2, rr.rclass);
    U32Read(buf, o + 4, rr.ttl);
    U16Read(buf, o + 8, rr.rdlength);
  }

  /** Where the owner name, the fixed part and the payload of an encoded
      record sit. */
  lemma RecordParts(buf: Buffer, off: nat, rr: RR)
    requires WellFormedRR(rr) && At(buf, off, EncodeRR(rr))
    ensures var o := off + WireLength(rr.name) + 1;
      && At(buf, off, EncodeName(rr.name))
      && At(buf, o, EncodeFixed(rr))
      && At(buf, o + RecordFixedSize, EncodeRData(rr.rtype, rr.data))
  {
    var name := EncodeName(rr.name);
    AtAppend(buf, off, name + EncodeFixed(rr), EncodeRData(rr.rtype, rr.data));
    AtAppend(buf, off, name, EncodeFixed(rr));
  }

  /** Four address bytes decode to the address text they were written from. */
  lemma DecodeEncodedAddress(buf: Buffer, p: nat, rtype: nat, d: RData, end: nat)
    requires d.Address? && WellFormedRData(rtype, d) && At(buf, p, EncodeRData(rtype, d))
    requires end == p + |EncodeRData(rtype, d)|
    ensures DecodeRData(buf, p, rtype) == Ok((d, end))
  {
    AtSlice(buf, p, EncodeRData(rtype, d));
  }

  /** A name written without pointers, read with the program's bound, with
      its end named. */
  lemma PlainNameAt(buf: Buffer, off: nat, name: Name, end: nat)
    requires ValidLabels(name) && At(buf, off, EncodeName(name)) && end == off + WireLength(name) + 1
    ensures ReadName(buf, off) == Ok((name, end))
  {
    DecodePlainName(buf, off, name, RecursionLimit);
  }

  /** One name decodes to the name server it was written from. */
  lemma DecodeEncodedNameServer(buf: Buffer, p: nat, rtype: nat, d: RData, end: nat)
    requires d.NameServer? && WellFormedRData(rtype, d) && At(buf, p, EncodeRData(rtype, d))
    requires end == p + |EncodeRData(rtype, d)|
    ensures DecodeRData(buf, p, rtype) == Ok((d, end))
  {
    AtSlice(buf, p, EncodeRData(rtype, d));
    PlainNameAt(buf, p, d.nsdname, end);
  }

  /** Where the two names and the counters of an encoded SOA payload sit,
      and where the payload ends. */
  lemma SoaParts(buf: Buffer, p: nat, rtype: nat, d: RData, q: nat, c: nat)
    requires d.StartOfAuthority? && WellFormedRData(rtype, d) && At(buf, p, EncodeRData(rtype, d))
    requires q == p + WireLength(d.mname) + 1 && c == q + WireLength(d.rname) + 1
    ensures At(buf, p, EncodeName(d.mname))
    ensures At(buf, q, EncodeName(d.rname))
    ensures At(buf, c, EncodeCounters(SoaCounters(d)))
    ensures p + |EncodeRData(rtype, d)| == c + SoaCountersSize
  {
    var m, rn := EncodeName(d.mname), EncodeName(d.rname);
    AtAppend(buf, p, m + rn, EncodeCounters(SoaCounters(d)));
    AtAppend(buf, p, m, rn);
  }

  /** An SOA payload decodes to itself: two names, then five counters
      filling the last 20 bytes. */
  lemma DecodeEncodedSoa(buf: Buffer, p: nat, rtype: nat, d: RData, end: nat)
    requires d.StartOfAuthority? && WellFormedRData(rtype, d) && At(buf, p, EncodeRData(rtype, d))
    requires end == p + |EncodeRData(rtype, d)|
    ensures DecodeRData(buf, p, rtype) == Ok((d, end))
  {
    var q := p + WireLength(d.mname) + 1;
    var c := q + WireLength(d.rname) + 1;
    SoaParts(buf, p, rtype, d, q, c);
    PlainNameAt(buf, p, d.mname, q);
    PlainNameAt(buf, q, d.rname, c);
    SoaCountersRead(buf, c, d);
    SoaStep(buf, p, rtype, d, q, c, end);
  }

  /** An SOA payload is two names and then the counters. */
  lemma SoaStep(buf: Buffer, p: nat, rtype: nat, d: RData, q: nat, c: nat, end: nat)
    requires p <= |buf| && rtype == TypeSOA && d.StartOfAuthority?
    requires ReadName(buf, p) == Ok((d.mname, q)) && ReadName(buf, q) == Ok((d.rname, c))
    requires c + SoaCountersSize <= |buf| && end == c + SoaCountersSize
    requires d.serial == U32At(buf, c) && d.refresh == U32At(buf, c + 4) && d.retry == U32At(buf, c + 8)
    requires d.expire == U32At(buf, c + 12) && d.minimum == U32At(buf, c + 16)
    ensures DecodeRData(buf, p, rtype) == Ok((d, end))
  {
  }

  /** The five counters of an SOA payload read back at their offsets. */
  lemma SoaCountersRead(buf: Buffer, c: nat, d: RData)
    requires d.StartOfAuthority? && (forall i :: 0 <= i < 5 ==> SoaCounters(d)[i] < Two32)
    requires At(buf, c, EncodeCounters(SoaCounters(d)))
    ensures c + SoaCountersSize <= |buf|
    ensures d.serial == U32At(buf, c) && d.refresh == U32At(buf, c + 4) && d.retry == U32At(buf, c + 8)
    ensures d.expire == U32At(buf, c + 12) && d.minimum == U32At(buf, c + 16)
  {
    var cs := SoaCounters(d);
    CountersRead(buf, c, cs);
    assert U32At(buf, c + 4 * 0) == cs[0];
    assert U32At(buf, c + 4 * 1) == cs[1];
    assert U32At(buf, c + 4 * 2) == cs[2];
    assert U32At(buf, c + 4 * 3) == cs[3];
    assert U32At(buf, c + 4 * 4) == cs[4];
  }

  /** Every payload decodes to itself, and the end is the end of its bytes. */
  lemma DecodeEncodedRData(buf: Buffer, p: nat, rtype: nat, d: RData, end: nat)
    requires WellFormedRData(rtype, d) && At(buf, p, EncodeRData(rtype, d))
    requires end == p + |EncodeRData(rtype, d)|
    ensures p <= |buf|
    ensures DecodeRData(buf, p, rtype) == Ok((d, end))
  {
    AtSlice(buf, p, EncodeRData(rtype, d));
    match d
    case Address(_) => DecodeEncodedAddress(buf, p, rtype, d, end);
    case NameServer(_) => DecodeEncodedNameServer(buf, p, rtype, d, end);
    case StartOfAuthority(_, _, _, _, _, _, _) => DecodeEncodedSoa(buf, p, rtype, d, end);
    case Undecoded =>
  }

  /** A record written without compression decodes to itself, and the
      offset moves past it.  A record of any other type ends after its
      fixed part, whatever bytes follow. */
  lemma DecodeEncodedRR(buf: Buffer, off: nat, rr: RR, end: nat)
    requires WellFormedRR(rr) && At(buf, off, EncodeRR(rr))
    requires end == off + |EncodeRR(rr)|
    ensures DecodeRR(buf, off) == Ok((rr, end))
  {
    var o := off + WireLength(rr.name) + 1;
    HeadParts(buf, off, rr, o, end);
    RecordFromParts(buf, off, rr, o, end);
  }

  /** The owner name and the fixed fields of an encoded record read back,
      and the payload bytes follow them up to `end`. */
  lemma HeadParts(buf: Buffer, off: nat, rr: RR, o: nat, end: nat)
    requires WellFormedRR(rr) && At(buf, off, EncodeRR(rr)) && o == off + WireLength(rr.name) + 1
    requires end == off + |EncodeRR(rr)|
    ensures ReadName(buf, off) == Ok((rr.name, o)) && o + RecordFixedSize <= |buf|
    ensures U16At(buf, o) == rr.rtype && U16At(buf, o + 2) == rr.rclass
    ensures U32At(buf, o + 4) == rr.ttl && U16At(buf, o + 8) == rr.rdlength
    ensures At(buf, o + RecordFixedSize, EncodeRData(rr.rtype, rr.data))
    ensures end == o + RecordFixedSize + |EncodeRData(rr.rtype, rr.data)|
  {
    RecordParts(buf, off, rr);
    PlainNameAt(buf, off, rr.name, o);
    FixedParts(buf, o, rr);
  }

  /** A record whose owner name and fixed fields read back, followed by an
      encoded payload ending at `end`, decodes to itself. */
  lemma RecordFromParts(buf: Buffer, off: nat, rr: RR, o: nat, end: nat)
    requires WellFormedRR(rr)
    requires ReadName(buf, off) == Ok((rr.name, o)) && o + RecordFixedSize <= |buf|
    requires U16At(buf, o) == rr.rtype && U16At(buf, o + 2) == rr.rclass
    requires U32At(buf, o + 4) == rr.ttl && U16At(buf, o + 8) == rr.rdlength
    requires At(buf, o + RecordFixedSize, EncodeRData(rr.rtype, rr.data))
    requires end == o + RecordFixedSize + |EncodeRData(rr.rtype, rr.data)|
    ensures DecodeRR(buf, off) == Ok((rr, end))
  {
    DecodeEncodedRData(buf, o + RecordFixedSize, rr.rtype, rr.data, end);
    RecordStep(buf, off, rr, o, end);
  }

  /** A record is its owner name, the fixed fields read after it, and the
      payload read after those. */
  lemma RecordStep(buf: Buffer, off: nat, rr: RR, o: nat, end: nat)
    requires ReadName(buf, off) == Ok((rr.name, o)) && o + RecordFixedSize <= |buf|
    requires U16At(buf, o) == rr.rtype && U16At(buf, o + 2) == rr.rclass
    requires U32At(buf, o + 4) == rr.ttl && U16At(buf, o + 8) == rr.rdlength
    requires DecodeRData(buf, o + RecordFixedSize, rr.rtype) == Ok((rr.data, end))
    ensures DecodeRR(buf, off) == Ok((rr, end))
  {
    assert rr == RR(rr.name, U16At(buf, o), U16At(buf, o + 2), U32At(buf, o + 4), U16At(buf, o + 8), rr.data);
  }

  // ---------------------------------------------------------------------
  // The question encoder, against which the question decoder is checked.
  // ---------------------------------------------------------------------

  predicate WellFormedQuestion(q: Question) {
    ValidLabels(q.qname) && q.qtype < Two16 && q.qclass < Two16
  }

  function EncodeQuestion(q: Question): (b: Buffer)
    requires WellFormedQuestion(q)
    ensures |b| == WireLength(q.qname) + 1 + QuestionFixedSize
  {
    EncodeName(q.qname) + U16Bytes(q.qtype) + U16Bytes(q.qclass)
  }

  /** A question written without compression decodes to itself and the
      offset moves past it. */
  lemma DecodeEncodedQuestion(buf: Buffer, off: nat, q: Question)
    requires WellFormedQuestion(q) && At(buf, off, EncodeQuestion(q))
    ensures DecodeQuestion(buf, off) == Ok((q, off + |EncodeQuestion(q)|))
  {
    QuestionParts(buf, off, q);
    DecodePlainName(buf, off, q.qname, RecursionLimit);
  }

  /** Where the parts of an encoded question sit in the buffer. */
  lemma QuestionParts(buf: Buffer, off: nat, q: Question)
    requires WellFormedQuestion(q) && At(buf, off, EncodeQuestion(q))
    ensures var o := off + WireLength(q.qname) + 1;
      && At(buf, off, EncodeName(q.qname))
      && o + QuestionFixedSize <= |buf|
      && U16At(buf, o) == q.qtype && U16At(buf, o + 2) == q.qclass
  {
    var name := EncodeName(q.qname);
    AtAppend(buf, off, name + U16Bytes(q.qtype), U16Bytes(q.qclass));
    AtAppend(buf, off, name, U16Bytes(q.qtype));
    U16Read(buf, off + |name|, q.qtype);
    U16Read(buf, off + |name| + 2, q.qclass);
  }
}

=== FILE: render.dfy ===
/** `str_question`, `str_rr` and the header lines of `print_dns_message`:
    one line of text per decoded entry.  Labels are byte strings, and
    `'.'.join` glues them together byte for byte, so each byte becomes the
    character with that code.  A class other than IN (1), or a question
    type other than A, NS or SOA, leaves a local variable unassigned, and
    using it raises; the model returns `UnsetClass` or `UnsetType`. */
module Render {
  import opened Wire
  import opened Text
  import opened Names
  import opened Header
  import opened Records

  const ClassIN: nat := 1
  const NotImplemented: string := "*Not implemented*"

  function LabelText(l: Label): (s: string)
    ensures |s| == |l|
    ensures forall i :: 0 <= i < |l| ==> s[i] as int == l[i]
  {
    seq(|l|, i requires 0 <= i < |l| => l[i] as char)
  }

  /** `'.'.join(name)`. */
  function NameText(name: Name): string {
    Join(LabelTexts(name), '.')
  }

  function LabelTexts(name: Name): (r: seq<string>)
    ensures |r| == |name| && forall i :: 0 <= i < |name| ==> r[i] == LabelText(name[i])
  {
    seq(|name|, i requires 0 <= i < |name| => LabelText(name[i]))
  }

  /** The mnemonic of the three types the renderer knows. */
  function TypeName(t: nat): (r: Result<string>)
    ensures r.Ok? <==> t == TypeA || t == TypeNS || t == TypeSOA
    ensures r.Err? ==> r.error == UnsetType
  {
    if t == TypeA then Ok("A")
    else if t == TypeNS then Ok("NS")
    else if t == TypeSOA then Ok("SOA")
    else Err(UnsetType)
  }

  /** `str_question`: `qname. IN TYPE`.  The class is looked up before the
      type, so a question with neither a known class nor a known type
      reports the class. */
  function StrQuestion(q: Question): (r: Result<string>)
    ensures r.Ok? <==> q.qclass == ClassIN && TypeName(q.qtype).Ok?
    ensures q.qclass != ClassIN ==> r == Err(UnsetClass)
    ensures q.qclass == ClassIN && TypeName(q.qtype).Err? ==> r == Err(UnsetType)
  {
    if q.qclass != ClassIN then Err(UnsetClass)
    else
      var t :- TypeName(q.qtype);
      Ok(NameText(q.qname) + ". IN " + t)
  }

  /** The fields of a rendered question, split at spaces. */
  lemma QuestionFields(q: Question, line: string)
    requires StrQuestion(q) == Ok(line) && Free(NameText(q.qname), ' ')
    ensures Split(line, ' ') == [NameText(q.qname) + ".", "IN", TypeName(q.qtype).value]
  {
    var t := TypeName(q.qtype).value;
    var owner := NameText(q.qname) + ".";
    assert line == owner + [' '] + ("IN" + [' '] + t);
    assert Free(owner, ' ');
    SplitAfterField(owner, ' ', "IN" + [' '] + t);
    SplitAfterField("IN", ' ', t);
    SplitField(t, ' ');
  }

  /** `str_rr`: the owner, ttl, class, type and payload of a record of a
      known type, and `*Not implemented*` for every other type whatever its
      class. */
  function StrRR(rr: RR): (r: Result<string>)
    ensures rr.data.Undecoded? ==> r == Ok(NotImplemented)
    ensures !rr.data.Undecoded? && rr.rclass != ClassIN ==> r == Err(UnsetClass)
    ensures r.Ok? <==> rr.data.Undecoded? || rr.rclass == ClassIN
  {
    if rr.data.Undecoded? then Ok(NotImplemented)
    else if rr.rclass != ClassIN then Err(UnsetClass)
    else Ok(Join(RecordFields(rr), ' '))
  }

  /** The space-separated fields of a record line: owner, ttl, class, type,
      then the payload's own fields. */
  function RecordFields(rr: RR): seq<string>
    requires !rr.data.Undecoded?
  {
    var head := [NameText(rr.name) + ".", Dec(rr.ttl), "IN"];
    match rr.data
    case Address(a) => head + ["A", a]
    case NameServer(n) => head + ["NS", NameText(n)]
    case StartOfAuthority(mname, rname, serial, refresh, retry, expire, minimum) =>
      head + ["SOA", NameText(mname), NameText(rname), Dec(serial), Dec(refresh), Dec(retry), Dec(expire), Dec(minimum)]
  }

  /** No name in the record contains a space, so the fields survive a split. */
  predicate SpaceFreeNames(rr: RR) {
    && Free(NameText(rr.name), ' ')
    && (rr.data.NameServer? ==> Free(NameText(rr.data.nsdname), ' '))
    && (rr.data.StartOfAuthority? ==> Free(NameText(rr.data.mname), ' ') && Free(NameText(rr.data.rname), ' '))
    && (rr.data.Address? ==> Free(rr.data.address, ' '))
  }

  /** A rendered record splits at spaces back into its fields. */
  lemma RecordLineFields(rr: RR, line: string)
    requires StrRR(rr) == Ok(line) && !rr.data.Undecoded? && SpaceFreeNames(rr)
    ensures Split(line, ' ') == RecordFields(rr)
  {
    var fields := RecordFields(rr);
    forall i | 0 <= i < |fields|
      ensures Free(fields[i], ' ')
    {
      if i == 1 || (rr.data.StartOfAuthority? && i >= 6) {
        DecFree(if i == 1 then rr.ttl else [rr.data.serial, rr.data.refresh, rr.data.retry, rr.data.expire, rr.data.minimum][i - 6], ' ');
      }
    }
    SplitJoin(fields, ' ');
  }

  /** Record lines of known types never read `*Not implemented*`: they
      contain a dot right after the owner name. */
  lemma NotImplementedIff(rr: RR)
    requires StrRR(rr).Ok?
    ensures StrRR(rr).value == NotImplemented <==> rr.data.Undecoded?
  {
    if !rr.data.Undecoded? {
      var fields := RecordFields(rr);
      var line := Join(fields, ' ');
      assert line == fields[0] + [' '] + Join(fields[1..], ' ');
      assert line[|NameText(rr.name)|] == '.';
      assert forall i :: 0 <= i < |NotImplemented| ==> NotImplemented[i] != '.';
    }
  }

  /** The five lines of the header box.  The flag line fills its `RCODE=`
      slot with the opcode, so the response code never appears. */
  function HeaderLines(h: Header): seq<string> {
    [ "Header",
      "------",
      "ID=" + Dec(h.id),
      Join(FlagFields(h), ' '),
      Join(CountFields(h), ' ') ]
  }

  function FlagFields(h: Header): seq<string> {
    var f := h.flags;
    [ "QR=" + Dec(f.qr), "OPCODE=" + Dec(f.opcode), "AA=" + Dec(f.aa), "TC=" + Dec(f.tc),
      "RD=" + Dec(f.rd), "RA=" + Dec(f.ra), "Z=" + Dec(f.z), "RCODE=" + Dec(f.opcode) ]
  }

  function CountFields(h: Header): seq<string> {
    [ "QDCOUNT=" + Dec(h.qdcount), "ANCOUNT=" + Dec(h.ancount),
      "NSCOUNT=" + Dec(h.nscount), "ARCOUNT=" + Dec(h.arcount) ]
  }

  /** The header with its response code replaced by the opcode. */
  function Shown(h: Header): Header {
    h.(flags := h.flags.(rcode := h.flags.opcode))
  }

  /** A tag followed by a decimal number determines the number. */
  lemma TaggedInjective(tag: string, a: nat, b: nat)
    ensures tag + Dec(a) == tag + Dec(b) ==> a == b
  {
    if tag + Dec(a) == tag + Dec(b) {
      assert Dec(a) == (tag + Dec(a))[|tag|..];
      assert Dec(b) == (tag + Dec(b))[|tag|..];
      DecInjective(a, b);
    }
  }

  /** A tag followed by a decimal number contains no space. */
  lemma TaggedFree(tag: string, n: nat)
    requires Free(tag, ' ')
    ensures Free(tag + Dec(n), ' ')
  {
    DecFree(n, ' ');
  }

  /** The header lines show every field except the response code: two
      headers render alike exactly when they agree once the response code
      is replaced by the opcode. */
  lemma HeaderLinesIff(g: Header, h: Header)
    ensures HeaderLines(g) == HeaderLines(h) <==> Shown(g) == Shown(h)
  {
    if HeaderLines(g) == HeaderLines(h) {
      HeaderFieldsFree(g);
      HeaderFieldsFree(h);
      SplitJoin(FlagFields(g), ' ');
      SplitJoin(FlagFields(h), ' ');
      SplitJoin(CountFields(g), ' ');
      SplitJoin(CountFields(h), ' ');
      var fg, fh := FlagFields(g), FlagFields(h);
      assert fg == fh;
      assert CountFields(g) == CountFields(h);
      TaggedInjective("ID=", g.id, h.id);
      TaggedInjective("QR=", g.flags.qr, h.flags.qr);
      TaggedInjective("OPCODE=", g.flags.opcode, h.flags.opcode);
      TaggedInjective("AA=", g.flags.aa, h.flags.aa);
      TaggedInjective("TC=", g.flags.tc, h.flags.tc);
      TaggedInjective("RD=", g.flags.rd, h.flags.rd);
      TaggedInjective("RA=", g.flags.ra, h.flags.ra);
      TaggedInjective("Z=", g.flags.z, h.flags.z);
      TaggedInjective("QDCOUNT=", g.qdcount, h.qdcount);
      TaggedInjective("ANCOUNT=", g.ancount, h.ancount);
      TaggedInjective("NSCOUNT=", g.nscount, h.nscount);
      TaggedInjective("ARCOUNT=", g.arcount, h.arcount);
    }
  }

  lemma HeaderFieldsFree(h: Header)
    ensures forall i :: 0 <= i < |FlagFields(h)| ==> Free(FlagFields(h)[i], ' ')
    ensures forall i :: 0 <= i < |CountFields(h)| ==> Free(CountFields(h)[i], ' ')
  {
    var f := h.flags;
    TaggedFree("QR=", f.qr);
    TaggedFree("OPCODE=", f.opcode);
    TaggedFree("AA=", f.aa);
    TaggedFree("TC=", f.tc);
    TaggedFree("RD=", f.rd);
    TaggedFree("RA=", f.ra);
    TaggedFree("Z=", f.z);
    TaggedFree("RCODE=", f.opcode);
    TaggedFree("QDCOUNT=", h.qdcount);
    TaggedFree("ANCOUNT=", h.ancount);
    TaggedFree("NSCOUNT=", h.nscount);
    TaggedFree("ARCOUNT=", h.arcount);
  }
}

=== FILE: report.dfy ===
/** `print_dns_message` up to the final `print`: decode the buffer, render
    the header, every question and every record as lines grouped by
    section, and draw the box around the groups.  Every line is rendered
    before the box is drawn, so a line that cannot be rendered means no
    report at all. */
module Report {
  import opened Wire
  import opened Records
  import opened Message
  import opened Render
  import opened Layout

  /** Renders each item in order; the first item that cannot be rendered
      aborts with its error. */
  function RenderAll<T>(f: T -> Result<string>, xs: seq<T>): (r: Result<seq<string>>)
    ensures r.Ok? <==> forall i :: 0 <= i < |xs| ==> f(xs[i]).Ok?
    ensures r.Ok? ==> |r.value| == |xs| && forall i :: 0 <= i < |xs| ==> f(xs[i]) == Ok(r.value[i])
    ensures r.Err? ==> exists i :: 0 <= i < |xs| && f(xs[i]) == Err(r.error) && forall j :: 0 <= j < i ==> f(xs[j]).Ok?
  {
    if |xs| == 0 then Ok([])
    else
      var line :- f(xs[0]);
      var rest :- RenderAll(f, xs[1..]);
      Ok([line] + rest)
  }

  /** The five titled groups of lines, in the order the report shows them. */
  function Groups(m: Message): (r: Result<seq<seq<string>>>)
    ensures r.Ok? ==> |r.value| == 5 && r.value[0] == HeaderLines(m.header)
    ensures r.Ok? ==> |r.value[1]| == 2 + |m.question| && |r.value[2]| == 2 + |m.answer|
                      && |r.value[3]| == 2 + |m.authority| && |r.value[4]| == 2 + |m.additional|
    ensures r.Ok? ==> r.value[1][..2] == ["Question", "--------"] && r.value[2][..2] == ["Answer", "------"]
                      && r.value[3][..2] == ["Authority", "---------"] && r.value[4][..2] == ["Additional", "----------"]
    ensures r.Ok? ==> forall i :: 0 <= i < |m.question| ==> StrQuestion(m.question[i]) == Ok(r.value[1][2 + i])
    ensures r.Ok? ==> forall i :: 0 <= i < |m.answer| ==> StrRR(m.answer[i]) == Ok(r.value[2][2 + i])
    ensures r.Ok? ==> forall i :: 0 <= i < |m.authority| ==> StrRR(m.authority[i]) == Ok(r.value[3][2 + i])
    ensures r.Ok? ==> forall i :: 0 <= i < |m.additional| ==> StrRR(m.additional[i]) == Ok(r.value[4][2 + i])
  {
    var qd :- RenderAll(StrQuestion, m.question);
    var an :- RenderAll(StrRR, m.answer);
    var ns :- RenderAll(StrRR, m.authority);
    var ar :- RenderAll(StrRR, m.additional);
    Ok([ HeaderLines(m.header),
         ["Question", "--------"] + qd,
         ["Answer", "------"] + an,
         ["Authority", "---------"] + ns,
         ["Additional", "----------"] + ar ])
  }

  /** A question the renderer accepts: class IN and type A, NS or SOA. */
  predicate Printable(q: Question) {
    q.qclass == ClassIN && (q.qtype == TypeA || q.qtype == TypeNS || q.qtype == TypeSOA)
  }

  /** A record the renderer accepts: of an unknown type, or of class IN. */
  predicate PrintableRR(rr: RR) {
    rr.data.Undecoded? || rr.rclass == ClassIN
  }

  predicate PrintableMessage(m: Message) {
    && (forall i :: 0 <= i < |m.question| ==> Printable(m.question[i]))
    && (forall i :: 0 <= i < |m.answer| ==> PrintableRR(m.answer[i]))
    && (forall i :: 0 <= i < |m.authority| ==> PrintableRR(m.authority[i]))
    && (forall i :: 0 <= i < |m.additional| ==> PrintableRR(m.additional[i]))
  }

  /** The whole report for a message buffer, without `print`'s newline. */
  function PrintDnsMessage(buf: Buffer): (r: Result<string>)
    ensures DecodeMessage(buf).Err? ==> r == Err(DecodeMessage(buf).error)
  {
    var m :- DecodeMessage(buf);
    var groups :- Groups(m);
    Ok(Box(groups))
  }

  /** A report comes out exactly when the buffer decodes and every
      question and record in it can be rendered. */
  lemma PrintOkIff(buf: Buffer)
    ensures PrintDnsMessage(buf).Ok? <==> DecodeMessage(buf).Ok? && PrintableMessage(DecodeMessage(buf).value)
  {
    if DecodeMessage(buf).Ok? {
      GroupsOkIff(DecodeMessage(buf).value);
    }
  }

  lemma GroupsOkIff(m: Message)
    ensures Groups(m).Ok? <==> PrintableMessage(m)
  {
    QuestionsRender(m.question);
    RecordsRender(m.answer);
    RecordsRender(m.authority);
    RecordsRender(m.additional);
  }

  lemma QuestionsRender(qs: seq<Question>)
    ensures RenderAll(StrQuestion, qs).Ok? <==> forall i :: 0 <= i < |qs| ==> Printable(qs[i])
  {
    assert forall i :: 0 <= i < |qs| ==> (StrQuestion(qs[i]).Ok? <==> Printable(qs[i]));
  }

  lemma RecordsRender(rs: seq<RR>)
    ensures RenderAll(StrRR, rs).Ok? <==> forall i :: 0 <= i < |rs| ==> PrintableRR(rs[i])
  {
  }

  /** The box is never narrower than its widest title, "Additional", so
      no line ever needs a zero-width cut. */
  lemma ReportWidth(m: Message)
    requires Groups(m).Ok?
    ensures 10 <= Width(Groups(m).value) <= MaxWidth
  {
    var g := Groups(m).value;
    WidthIsCappedMax(g);
    assert Min(|g[4][0]|, MaxWidth) == 10;
  }
}

=== FILE: samples.dfy ===
/** A worked query for the A record of example.com and its answer,
    192.0.2.1, whose owner name is a compression pointer back to the
    question's name. */
module Samples {
  import opened Wire
  import opened Text
  import opened Names
  import opened Header
  import opened Records
  import opened Sections
  import opened Message
  import opened Render

  const Example: Label := [101, 120, 97, 109, 112, 108, 101]
  const Com: Label := [99, 111, 109]

  /** example.com written without compression: 7, "example", 3, "com", 0. */
  const NameBytes: Buffer := [7, 101, 120, 97, 109, 112, 108, 101, 3, 99, 111, 109, 0]

  /** The question: the name, type A, class IN. */
  const QuestionBytes: Buffer := NameBytes + [0, 1, 0, 1]

  /** ID 0x1234, recursion desired, one question. */
  const Query: Buffer := [0x12, 0x34, 0x01, 0x00, 0, 1, 0, 0, 0, 0, 0, 0] + QuestionBytes

  const QueryHeader: Header := Header(0x1234, Flags(0, 0, 0, 0, 1, 0, 0, 0), 1, 0, 0, 0)
  const QueryQuestion: Question := Question([Example, Com], TypeA, ClassIN)

  lemma QueryHeaderDecodes()
    ensures DecodeHeader(Query) == Ok((QueryHeader, HeaderSize))
  {
    assert U16At(Query, 2) == 0x0100;
    assert UnpackFlags(0x0100) == QueryHeader.flags;
  }

  lemma NameEncoding()
    ensures ValidLabels([Example, Com]) && EncodeName([Example, Com]) == NameBytes
  {
    var name := [Example, Com];
    assert name[1..] == [Com] && [Com][1..] == [];
    assert EncodeLabels([Com]) == [3] + Com;
    assert EncodeLabels(name) == [7] + Example + EncodeLabels([Com]);
  }

  /** The name takes 7 + 1 + 3 + 1 bytes and the terminator: 13 in all. */
  lemma QueryNameDecodes()
    ensures ReadName(Query, HeaderSize) == Ok(([Example, Com], HeaderSize + 13))
  {
    var name := [Example, Com];
    NameEncoding();
    assert Query[12..25] == NameBytes;
    AtSlice(Query, 12, EncodeName(name));
    DecodePlainName(Query, 12, name, RecursionLimit);
  }

  lemma QueryDecodes()
    ensures DecodeMessage(Query) == Ok(Message(QueryHeader, [QueryQuestion], [], [], []))
  {
    QueryHeaderDecodes();
    QueryNameDecodes();
    assert DecodeQuestion(Query, 12) == Ok((QueryQuestion, 29));
    assert Chain(DecodeQuestion, Query, [QueryQuestion], [12, 29]);
    RepeatOfChain(DecodeQuestion, Query, [QueryQuestion], [12, 29]);
  }

  lemma QueryQuestionLine()
    ensures StrQuestion(QueryQuestion) == Ok("example.com. IN A")
  {
    ExampleText();
    assert TypeName(TypeA) == Ok("A");
    assert StrQuestion(QueryQuestion) == Ok(NameText([Example, Com]) + ". IN " + "A");
    assert "example.com" + ". IN " + "A" == "example.com. IN A";
  }

  /** The answer record: a pointer to offset 12 as owner, type A, class
      IN, ttl 3600, rdlength 4, address 192.0.2.1. */
  const AnswerBytes: Buffer := [0xC0, 12, 0, 1, 0, 1, 0, 0, 0x0E, 0x10, 0, 4, 192, 0, 2, 1]

  /** The response: the query's question echoed, with response and
      recursion-available flags set and one answer. */
  const Response: Buffer := [0x12, 0x34, 0x81, 0x80, 0, 1, 0, 1, 0, 0, 0, 0] + QuestionBytes + AnswerBytes

  const ResponseHeader: Header := Header(0x1234, Flags(1, 0, 0, 0, 1, 1, 0, 0), 1, 1, 0, 0)
  const Answer: RR := RR([Example, Com], TypeA, ClassIN, 3600, 4, Address("192.0.2.1"))

  lemma ResponseHeaderDecodes()
    ensures DecodeHeader(Response) == Ok((ResponseHeader, HeaderSize))
  {
    assert U16At(Response, 2) == 0x8180;
    assert UnpackFlags(0x8180) == ResponseHeader.flags;
  }

  lemma ResponseNameDecodes(fuel: nat)
    ensures DecodeName(Response, HeaderSize, fuel) == Ok(([Example, Com], HeaderSize + 13))
  {
    var name := [Example, Com];
    NameEncoding();
    assert Response[12..25] == NameBytes;
    AtSlice(Response, 12, EncodeName(name));
    DecodePlainName(Response, 12, name, fuel);
  }

  /** The pointer's two bytes end the owner name: the record's fixed part
      starts at 31, whatever the length of the name pointed to. */
  lemma AnswerOwnerDecodes()
    ensures ReadName(Response, 29) == Ok(([Example, Com], 31))
  {
    assert Response[29..31] == AnswerBytes[..2] == EncodePointer(12);
    AtSlice(Response, 29, EncodePointer(12));
    ResponseNameDecodes(RecursionLimit - 1);
    DecodePointer(Response, 29, 12, RecursionLimit, [Example, Com], 25);
  }

  lemma AnswerAddress()
    ensures DottedQuad(Response[41..45]) == "192.0.2.1"
  {
    assert Response[41..45] == AnswerBytes[12..] == [192, 0, 2, 1];
    assert Dec(192) == "192" && Dec(0) == "0" && Dec(2) == "2" && Dec(1) == "1";
    assert Join(["192", "0", "2", "1"], '.') == "192" + "." + ("0" + "." + ("2" + "." + "1"));
  }

  lemma AnswerDecodes()
    ensures DecodeRR(Response, 29) == Ok((Answer, 45))
  {
    AnswerOwnerDecodes();
    AnswerAddress();
    assert U32At(Response, 35) == 3600;
  }

  lemma ResponseQuestions()
    ensures Repeat(DecodeQuestion, Response, HeaderSize, 1) == Ok(([QueryQuestion], 29))
  {
    ResponseNameDecodes(RecursionLimit);
    assert DecodeQuestion(Response, 12) == Ok((QueryQuestion, 29));
    assert Chain(DecodeQuestion, Response, [QueryQuestion], [12, 29]);
    RepeatOfChain(DecodeQuestion, Response, [QueryQuestion], [12, 29]);
  }

  lemma ResponseAnswers()
    ensures Repeat(DecodeRR, Response, 29, 1) == Ok(([Answer], 45))
  {
    AnswerDecodes();
    assert Chain(DecodeRR, Response, [Answer], [29, 45]);
    RepeatOfChain(DecodeRR, Response, [Answer], [29, 45]);
  }

  lemma ResponseDecodes()
    ensures DecodeMessage(Response) == Ok(Message(ResponseHeader, [QueryQuestion], [Answer], [], []))
  {
    ResponseHeaderDecodes();
    ResponseQuestions();
    ResponseAnswers();
  }

  lemma ExampleText()
    ensures NameText([Example, Com]) == "example.com"
  {
    assert LabelText(Example) == "example";
    assert LabelText(Com) == "com";
    assert LabelTexts([Example, Com]) == ["example", "com"];
    assert ["example", "com"][1..] == ["com"];
    assert NameText([Example, Com]) == "example" + "." + "com";
  }

  lemma AnswerFields()
    ensures RecordFields(Answer) == ["example.com.", "3600", "IN", "A", "192.0.2.1"]
  {
    ExampleText();
    assert Dec(3600) == "3600";
    assert NameText([Example, Com]) + "." == "example.com.";
  }

  lemma AnswerLine()
    ensures StrRR(Answer) == Ok("example.com. 3600 IN A 192.0.2.1")
  {
    AnswerFields();
    AnswerJoin();
  }

  /** The answer's fields joined with single spaces. */
  lemma AnswerJoin()
    ensures Join(["example.com.", "3600", "IN", "A", "192.0.2.1"], ' ') == "example.com. 3600 IN A 192.0.2.1"
  {
    var fields := ["example.com.", "3600", "IN", "A", "192.0.2.1"];
    assert fields[1..][1..][1..][1..] == ["192.0.2.1"];
    assert Join(fields, ' ') == "example.com." + " " + ("3600" + " " + ("IN" + " " + ("A" + " " + "192.0.2.1")));
    assert "example.com." + " " + ("3600" + " " + ("IN" + " " + ("A" + " " + "192.0.2.1"))) == "example.com. 3600 IN A 192.0.2.1";
  }
}

=== FILE: sections.dfy ===
/** The section loops `decode_question` and `decode_answer_section`: both
    read a count of items one after another, each item starting where the
    previous one ended, and give up on the first item that fails.  They
    differ only in the item decoder, so both are `Repeat` with
    `Records.DecodeQuestion` or `Records.DecodeRR` as its step. */
module Sections {
  import opened Wire

  /** Reads `count` items with `step` starting at `off`; returns them in
      buffer order with the offset after the last one. */
  function Repeat<T(==)>(step: (Buffer, nat) -> Result<(T, nat)>, buf: Buffer, off: nat, count: nat): (r: Result<(seq<T>, nat)>)
    ensures r.Ok? ==> |r.value.0| == count
    ensures count == 0 ==> r == Ok(([], off))
    decreases count
  {
    if count == 0 then Ok(([], off))
    else
      var first :- step(buf, off);
      var rest :- Repeat(step, buf, first.1, count - 1);
      Ok(([first.0] + rest.0, rest.1))
  }

  /** `items` lie back to back: item `i` is what `step` reads at `offs[i]`,
      and it ends at `offs[i + 1]`, where the next one starts. */
  predicate Chain<T(==)>(step: (Buffer, nat) -> Result<(T, nat)>, buf: Buffer, items: seq<T>, offs: seq<nat>) {
    && |offs| == |items| + 1
    && forall i :: 0 <= i < |items| ==> step(buf, offs[i]) == Ok((items[i], offs[i + 1]))
  }

  /** A chain one item longer: `x` read at `off` and ending where the rest
      of the chain starts. */
  lemma ChainCons<T>(step: (Buffer, nat) -> Result<(T, nat)>, buf: Buffer, off: nat, x: T, items: seq<T>, offs: seq<nat>)
    requires Chain(step, buf, items, offs) && step(buf, off) == Ok((x, offs[0]))
    ensures Chain(step, buf, [x] + items, [off] + offs)
  {
    var all, at := [x] + items, [off] + offs;
    forall i | 0 <= i < |all|
      ensures step(buf, at[i]) == Ok((all[i], at[i + 1]))
    {
      if i > 0 {
        assert all[i] == items[i - 1] && at[i] == offs[i - 1] && at[i + 1] == offs[i];
      }
    }
  }

  /** A section that decodes is a chain of items from `off` to its end. */
  lemma {:induction false} ChainOfRepeat<T>(step: (Buffer, nat) -> Result<(T, nat)>, buf: Buffer, off: nat, count: nat, items: seq<T>, end: nat)
    requires Repeat(step, buf, off, count) == Ok((items, end))
    ensures exists offs :: Chain(step, buf, items, offs) && offs[0] == off && offs[|items|] == end
    decreases count
  {
    if count == 0 {
      assert Chain(step, buf, items, [off]);
    } else {
      var (x, mid) := step(buf, off).value;
      ChainOfRepeat(step, buf, mid, count - 1, items[1..], end);
      var offs :| Chain(step, buf, items[1..], offs) && offs[0] == mid && offs[|items| - 1] == end;
      ChainCons(step, buf, off, x, items[1..], offs);
      assert [x] + items[1..] == items;
    }
  }

  /** Items lying back to back are exactly what the section loop reads. */
  lemma {:induction false} RepeatOfChain<T>(step: (Buffer, nat) -> Result<(T, nat)>, buf: Buffer, items: seq<T>, offs: seq<nat>)
    requires Chain(step, buf, items, offs)
    ensures Repeat(step, buf, offs[0], |items|) == Ok((items, offs[|items|]))
    decreases |items|
  {
    if |items| > 0 {
      assert step(buf, offs[0]) == Ok((items[0], offs[1]));
      assert Chain(step, buf, items[1..], offs[1..]) by {
        forall i | 0 <= i < |items| - 1
          ensures step(buf, offs[1..][i]) == Ok((items[1..][i], offs[1..][i + 1]))
        {
          assert step(buf, offs[i + 1]) == Ok((items[i + 1], offs[i + 2]));
        }
      }
      RepeatOfChain(step, buf, items[1..], offs[1..]);
      assert [items[0]] + items[1..] == items;
    }
  }

  /** The section loop succeeds with `items` exactly when they lie back to
      back from `off`, each where the previous one ended. */
  lemma RepeatChainIff<T>(step: (Buffer, nat) -> Result<(T, nat)>, buf: Buffer, off: nat, items: seq<T>, end: nat)
    ensures Repeat(step, buf, off, |items|) == Ok((items, end))
        <==> exists offs :: Chain(step, buf, items, offs) && offs[0] == off && offs[|items|] == end
  {
    if Repeat(step, buf, off, |items|) == Ok((items, end)) {
      ChainOfRepeat(step, buf, off, |items|, items, end);
    }
    if exists offs :: Chain(step, buf, items, offs) && offs[0] == off && offs[|items|] == end {
      var offs :| Chain(step, buf, items, offs) && offs[0] == off && offs[|items|] == end;
      RepeatOfChain(step, buf, items, offs);
    }
  }

  /** The section fails with `e` exactly when fewer than `count` items lie
      back to back from `off` and `step` fails with `e` right after them. */
  predicate FailsAfter<T(==)>(step: (Buffer, nat) -> Result<(T, nat)>, buf: Buffer, off: nat, count: nat, items: seq<T>, offs: seq<nat>, e: Error) {
    |items| < count && Chain(step, buf, items, offs) && offs[0] == off && step(buf, offs[|items|]) == Err(e)
  }

  lemma {:induction false} FailureOfRepeat<T>(step: (Buffer, nat) -> Result<(T, nat)>, buf: Buffer, off: nat, count: nat, e: Error)
    requires Repeat(step, buf, off, count) == Err(e)
    ensures exists items, offs :: FailsAfter(step, buf, off, count, items, offs, e)
    decreases count
  {
    if step(buf, off).Err? {
      assert FailsAfter(step, buf, off, count, [], [off], e);
    } else {
      var (x, mid) := step(buf, off).value;
      FailureOfRepeat(step, buf, mid, count - 1, e);
      var items, offs :| FailsAfter(step, buf, mid, count - 1, items, offs, e);
      ChainCons(step, buf, off, x, items, offs);
      assert ([off] + offs)[|[x] + items|] == offs[|items|];
      assert FailsAfter(step, buf, off, count, [x] + items, [off] + offs, e);
    }
  }

  lemma {:induction false} RepeatOfFailure<T>(step: (Buffer, nat) -> Result<(T, nat)>, buf: Buffer, off: nat, count: nat, items: seq<T>, offs: seq<nat>, e: Error)
    requires FailsAfter(step, buf, off, count, items, offs, e)
    ensures Repeat(step, buf, off, count) == Err(e)
    decreases |items|
  {
    if |items| > 0 {
      assert step(buf, off) == Ok((items[0], offs[1]));
      assert Chain(step, buf, items[1..], offs[1..]) by {
        forall i | 0 <= i < |items| - 1
          ensures step(buf, offs[1..][i]) == Ok((items[1..][i], offs[1..][i + 1]))
        {
          assert step(buf, offs[i + 1]) == Ok((items[i + 1], offs[i + 2]));
        }
      }
      RepeatOfFailure(step, buf, offs[1], count - 1, items[1..], offs[1..], e);
    }
  }

  /** The section loop fails with `e` exactly when some item fails with `e`
      after the items before it were read: the first failure aborts it. */
  lemma RepeatFailureIff<T>(step: (Buffer, nat) -> Result<(T, nat)>, buf: Buffer, off: nat, count: nat, e: Error)
    ensures Repeat(step, buf, off, count) == Err(e)
        <==> exists items, offs :: FailsAfter(step, buf, off, count, items, offs, e)
  {
    if Repeat(step, buf, off, count) == Err(e) {
      FailureOfRepeat(step, buf, off, count, e);
    }
    if exists items, offs :: FailsAfter(step, buf, off, count, items, offs, e) {
      var items, offs :| FailsAfter(step, buf, off, count, items, offs, e);
      RepeatOfFailure(step, buf, off, count, items, offs, e);
    }
  }

  /** Reading `m + n` items is reading `m` items and then `n` more from
      where they ended. */
  lemma {:induction false} RepeatSplit<T>(step: (Buffer, nat) -> Result<(T, nat)>, buf: Buffer, off: nat, m: nat, n: nat)
    ensures Repeat(step, buf, off, m + n) ==
      match Repeat(step, buf, off, m)
      case Err(e) => Err(e)
      case Ok((xs, mid)) =>
        match Repeat(step, buf, mid, n)
        case Err(e) => Err(e)
        case Ok((ys, end)) => Ok((xs + ys, end))
    decreases m
  {
    if m == 0 {
      if Repeat(step, buf, off, n).Ok? {
        assert [] + Repeat(step, buf, off, n).value.0 == Repeat(step, buf, off, n).value.0;
      }
    } else if step(buf, off).Ok? {
      var (x, next) := step(buf, off).value;
      RepeatSplit(step, buf, next, m - 1, n);
      match Repeat(step, buf, next, m - 1)
      case Err(e) =>
        assert Repeat(step, buf, off, m) == Err(e);
      case Ok((xs, mid)) =>
        assert Repeat(step, buf, off, m) == Ok(([x] + xs, mid));
        match Repeat(step, buf, mid, n)
        case Err(e) =>
        case Ok((ys, end)) =>
          assert [x] + (xs + ys) == ([x] + xs) + ys;
    }
  }

  /** Whatever `step` may fail with, the section may fail with, and with
      nothing else. */
  lemma RepeatErrors<T>(step: (Buffer, nat) -> Result<(T, nat)>, buf: Buffer, off: nat, count: nat, allowed: set<Error>)
    requires forall o: nat :: step(buf, o).Err? ==> step(buf, o).error in allowed
    ensures Repeat(step, buf, off, count).Err? ==> Repeat(step, buf, off, count).error in allowed
  {
    if Repeat(step, buf, off, count).Err? {
      var e := Repeat(step, buf, off, count).error;
      FailureOfRepeat(step, buf, off, count, e);
      var items, offs :| FailsAfter(step, buf, off, count, items, offs, e);
      assert step(buf, offs[|items|]).Err?;
    }
  }
}

=== FILE: text.dfy ===
/** String helpers the renderer is built from: decimal formatting of
    non-negative integers (Python's `%i` / `%s` on an int) and `sep.join`,
    each with the inverse that shows it loses nothing. */
module Text {

  predicate IsDigit(c: char) {
    '0' <= c <= '9'
  }

  predicate AllDigits(s: string) {
    forall i :: 0 <= i < |s| ==> IsDigit(s[i])
  }

  function Digit(d: nat): (c: char)
    requires d < 10
    ensures IsDigit(c)
  {
    (48 + d) as char
  }

  /** Decimal rendering of `n`, most significant digit first, no leading
      zeros. */
  function Dec(n: nat): (s: string)
    ensures 1 <= |s|
    ensures AllDigits(s)
    ensures n < 10 <==> |s| == 1
    decreases n
  {
    if n < 10 then [Digit(n)] else Dec(n / 10) + [Digit(n % 10)]
  }

  /** Reads a string of decimal digits back as a number: the partner of
      `Dec`. */
  function ParseDec(s: string): nat
    requires AllDigits(s)
  {
    if |s| == 0 then 0 else ParseDec(s[..|s| - 1]) * 10 + (s[|s| - 1] as int - 48)
  }

  lemma {:induction false} ParseDecOfDec(n: nat)
    ensures ParseDec(Dec(n)) == n
    decreases n
  {
    if n >= 10 {
      var s := Dec(n);
      assert s[..|s| - 1] == Dec(n / 10);
      ParseDecOfDec(n / 10);
    }
  }

  /** Different numbers render differently. */
  lemma DecInjective(a: nat, b: nat)
    ensures Dec(a) == Dec(b) ==> a == b
  {
    ParseDecOfDec(a);
    ParseDecOfDec(b);
  }

  /** Python's `sep.join(parts)`. */
  function Join(parts: seq<string>, sep: char): string
  {
    if |parts| == 0 then ""
    else if |parts| == 1 then parts[0]
    else parts[0] + [sep] + Join(parts[1..], sep)
  }

  /** Python's `s.split(sep)` for a one-character separator. */
  function Split(s: string, sep: char): (parts: seq<string>)
    ensures 1 <= |parts|
    decreases |s|
  {
    if |s| == 0 then [""]
    else
      var rest := Split(s[1..], sep);
      if s[0] == sep then [""] + rest else [[s[0]] + rest[0]] + rest[1..]
  }

  predicate Free(s: string, sep: char) {
    forall i :: 0 <= i < |s| ==> s[i] != sep
  }

  /** Splitting a separator-free prefix followed by the separator peels the
      prefix off as the first field. */
  lemma {:induction false} SplitAfterField(p: string, sep: char, t: string)
    requires Free(p, sep)
    ensures Split(p + [sep] + t, sep) == [p] + Split(t, sep)
    decreases |p|
  {
    if |p| == 0 {
      assert (p + [sep] + t)[1..] == t;
    } else {
      assert (p + [sep] + t)[1..] == p[1..] + [sep] + t;
      SplitAfterField(p[1..], sep, t);
      assert [p[0]] + p[1..] == p;
    }
  }

  /** A separator-free string splits into itself. */
  lemma {:induction false} SplitField(p: string, sep: char)
    requires Free(p, sep)
    ensures Split(p, sep) == [p]
    decreases |p|
  {
    if |p| > 0 {
      SplitField(p[1..], sep);
      assert [p[0]] + p[1..] == p;
    }
  }

  /** `split` undoes `join` when no part contains the separator. */
  lemma {:induction false} SplitJoin(parts: seq<string>, sep: char)
    requires 1 <= |parts|
    requires forall i :: 0 <= i < |parts| ==> Free(parts[i], sep)
    ensures Split(Join(parts, sep), sep) == parts
    decreases |parts|
  {
    if |parts| == 1 {
      SplitField(parts[0], sep);
    } else {
      SplitJoin(parts[1..], sep);
      SplitAfterField(parts[0], sep, Join(parts[1..], sep));
      assert [parts[0]] + parts[1..] == parts;
    }
  }

  /** Decimal text never contains a non-digit separator. */
  lemma DecFree(n: nat, sep: char)
    requires !IsDigit(sep)
    ensures Free(Dec(n), sep)
  {
  }
}

=== FILE: wire.dfy ===
/** The byte-level vocabulary every decoder shares: the immutable message
    buffer, the ways a decode or a rendering can fail, and the big-endian
    fixed-width reads that `struct.unpack_from` performs with the network
    byte-order prefix `!`.  A read that does not fit in the buffer fails
    (`struct.error` in decode-dns-buffer.py), which the model returns as `Truncated`. */
module Wire {

  /** One octet of the message. */
  type Byte = x: int | 0 <= x < 256

  /** The whole message, never mutated; decoders take it with an offset. */
  type Buffer = seq<Byte>

  /** Every failure decode-dns-buffer.py can raise on its way from a buffer
      to a report. */
  datatype Error =
    | Truncated      // struct.error: a fixed-width read past the end of the buffer
    | PointerDepth   // RuntimeError (maximum recursion depth): too many nested compression pointers
    | UnsetClass     // UnboundLocalError: a class other than IN reaches the renderer
    | UnsetType      // UnboundLocalError: a question type other than A, NS or SOA

  /** The outcome of a decode step; usable with `:-`. */
  datatype Result<+T> = Ok(value: T) | Err(error: Error) {
    predicate IsFailure() {
      Err?
    }

    function PropagateFailure<U>(): Result<U>
      requires Err?
    {
      Err(error)
    }

    function Extract(): T
      requires Ok?
    {
      value
    }
  }

  const Two16: nat := 0x1_0000
  const Two32: nat := 0x1_0000_0000

  /** The unsigned 16-bit big-endian value stored at `off` ("!H"). */
  function U16At(buf: Buffer, off: nat): (r: nat)
    requires off + 2 <= |buf|
    ensures r < Two16
  {
    buf[off] as nat * 256 + buf[off + 1] as nat
  }

  /** The unsigned 32-bit big-endian value stored at `off` ("!I"). */
  function U32At(buf: Buffer, off: nat): (r: nat)
    requires off + 4 <= |buf|
    ensures r < Two32
  {
    U16At(buf, off) * Two16 + U16At(buf, off + 2)
  }

  /** The two bytes "!H" packs `n` into: the partner of `U16At`. */
  function U16Bytes(n: nat): (r: Buffer)
    requires n < Two16
    ensures |r| == 2
  {
    [n / 256, n % 256]
  }

  /** The four bytes "!I" packs `n` into: the partner of `U32At`. */
  function U32Bytes(n: nat): (r: Buffer)
    requires n < Two32
    ensures |r| == 4
  {
    U16Bytes(n / Two16) + U16Bytes(n % Two16)
  }

  /** Reading back a packed 16-bit value, wherever it sits in a buffer,
      yields the value. */
  lemma U16RoundTrip(buf: Buffer, off: nat, n: nat)
    requires n < Two16
    requires off + 2 <= |buf| && buf[off..off + 2] == U16Bytes(n)
    ensures U16At(buf, off) == n
  {
    assert buf[off] == U16Bytes(n)[0] && buf[off + 1] == U16Bytes(n)[1];
  }

  /** Packing the 16-bit value read at `off` reproduces the two bytes. */
  lemma U16Repack(buf: Buffer, off: nat)
    requires off + 2 <= |buf|
    ensures U16Bytes(U16At(buf, off)) == buf[off..off + 2]
  {
  }

  /** Reading back a packed 32-bit value yields the value. */
  lemma U32RoundTrip(buf: Buffer, off: nat, n: nat)
    requires n < Two32
    requires off + 4 <= |buf| && buf[off..off + 4] == U32Bytes(n)
    ensures U32At(buf, off) == n
  {
    var hi, lo := U16Bytes(n / Two16), U16Bytes(n % Two16);
    assert buf[off..off + 4] == hi + lo;
    assert buf[off..off + 2] == (hi + lo)[..2] == hi;
    assert buf[off + 2..off + 4] == (hi + lo)[2..] == lo;
    U16RoundTrip(buf, off, n / Two16);
    U16RoundTrip(buf, off + 2, n % Two16);
  }

  /** A slice of a slice is a slice of the buffer. */
  lemma SubSlice(buf: Buffer, lo: nat, hi: nat, i: nat, j: nat)
    requires lo <= hi <= |buf| && i <= j <= hi - lo
    ensures buf[lo..hi][i..j] == buf[lo + i..lo + j]
  {
    assert |buf[lo..hi][i..j]| == j - i;
    forall k | 0 <= k < j - i
      ensures buf[lo..hi][i..j][k] == buf[lo + i..lo + j][k]
    {
    }
  }

  /** Bytes `a + b` found at `off` are `a` at `off` then `b` right after. */
  lemma Window(buf: Buffer, off: nat, a: Buffer, b: Buffer)
    requires off + |a| + |b| <= |buf| && buf[off..off + |a| + |b|] == a + b
    ensures buf[off..off + |a|] == a
    ensures buf[off + |a|..off + |a| + |b|] == b
  {
    SubSlice(buf, off, off + |a| + |b|, 0, |a|);
    SubSlice(buf, off, off + |a| + |b|, |a|, |a| + |b|);
    assert (a + b)[..|a|] == a && (a + b)[|a|..] == b;
  }

  /** `bytes` sit in `buf` starting at `off`.  Defined byte by byte rather
      than as a slice equation, so that a fact about where an encoding sits
      says nothing about other positions until `AtSlice` is applied. */
  predicate At(buf: Buffer, off: nat, bytes: Buffer)
    decreases |bytes|
  {
    off + |bytes| <= |buf| && (|bytes| == 0 || (buf[off] == bytes[0] && At(buf, off + 1, bytes[1..])))
  }

  /** `At` is the slice equation. */
  lemma {:induction false} AtSlice(buf: Buffer, off: nat, bytes: Buffer)
    ensures At(buf, off, bytes) <==> off + |bytes| <= |buf| && buf[off..off + |bytes|] == bytes
    decreases |bytes|
  {
    if |bytes| > 0 && off + |bytes| <= |buf| {
      AtSlice(buf, off + 1, bytes[1..]);
      assert buf[off..off + |bytes|] == [buf[off]] + buf[off + 1..off + |bytes|];
      assert bytes == [bytes[0]] + bytes[1..];
    }
  }

  /** Two encodings back to back are found where their concatenation is. */
  lemma AtAppend(buf: Buffer, off: nat, a: Buffer, b: Buffer)
    ensures At(buf, off, a + b) <==> At(buf, off, a) && At(buf, off + |a|, b)
  {
    AtSlice(buf, off, a + b);
    AtSlice(buf, off, a);
    AtSlice(buf, off + |a|, b);
    if off + |a| + |b| <= |buf| {
      assert buf[off..off + |a| + |b|] == buf[off..off + |a|] + buf[off + |a|..off + |a| + |b|];
      if buf[off..off + |a| + |b|] == a + b {
        Window(buf, off, a, b);
      }
    }
  }

  /** A packed 16-bit value found at `off` reads back as the value. */
  lemma U16Read(buf: Buffer, off: nat, n: nat)
    requires n < Two16 && At(buf, off, U16Bytes(n))
    ensures off + 2 <= |buf| && U16At(buf, off) == n
  {
    AtSlice(buf, off, U16Bytes(n));
    U16RoundTrip(buf, off, n);
  }

  /** A packed 32-bit value found at `off` reads back as the value. */
  lemma U32Read(buf: Buffer, off: nat, n: nat)
    requires n < Two32 && At(buf, off, U32Bytes(n))
    ensures off + 4 <= |buf| && U32At(buf, off) == n
  {
    AtSlice(buf, off, U32Bytes(n));
    U32RoundTrip(buf, off, n);
  }
}
